=== FILE: README.md ===
# Noko time tracking for Raycast: a Dafny model of its core

This project models the logic core of a Raycast extension for the Noko time
tracker. It covers how the extension renders and reads time, how it
summarises a list of logged entries, how it ranks timers and formats people
and tags, and the legacy helper module. It also models two hooks:
`useElapsedTime`, as a state machine that drives a running timer's display,
and the data hooks, which build API requests and attach timers to projects.

Modules and files:

| file | module | source |
|---|---|---|
| `optional.dfy` | `Optional` | `Option` for undefined, null and NaN |
| `strings.dfy` | `Strings` | digits, `padStart`, `split`, `join`, `trim`, `startsWith` |
| `js_number.dfy` | `JsNumber` | `Math.floor`/`%`/`Math.round` on integers, `String`, `parseInt`, `Number` |
| `types.dfy` | `Types` | `src/types.ts` records, the null timer object |
| `time_utils.dfy` | `TimeUtils` | `src/utils/time-utils.ts` |
| `entry_utils.dfy` | `EntryUtils` | `src/utils/entry-utils.ts` |
| `timer_utils.dfy` | `TimerUtils` | `src/utils/timer-utils.ts`, `src/constants.ts` |
| `user_utils.dfy` | `UserUtils` | `src/utils/user-utils.ts` |
| `description_utils.dfy` | `DescriptionUtils` | `src/utils/description-utils.ts` |
| `legacy_utils.dfy` | `LegacyUtils` | `src/utils.ts` |
| `elapsed_time_hook.dfy` | `ElapsedTimeHook` | `src/hooks/useElapsedTime.ts` |
| `api_data.dfy` | `ApiData` | `src/hooks/useApiData.ts` |

## How JavaScript is modelled

- Numbers are unbounded integers.
- `Math.floor(a / d)` is `JsNumber.FloorDiv`.
- `a % d` is `JsNumber.Rem`. Its result takes the sign of the dividend, so negative minutes and seconds behave as in JavaScript.
- `Math.round(n / d)` is `JsNumber.Round`: the nearest integer, with halves rounded up.
- `parseInt` and `Number` return `None` for NaN.
- The `parseFloat` call of `parseTimeInput` is modelled by `TimeUtils.ParseBareNumber`. It returns `Invalid` with the number-format message when `parseFloat` gives NaN. It returns `Uninterpreted(text)` for the fraction, exponent and `Infinity` forms it does not read.
- Only the integer forms of those three functions are interpreted.
- `parseTimeInput` throws on some inputs. The model returns `Invalid(message)` carrying the exact message text instead.
- The code reads `undefined` and `null` through `||` defaults and optional chaining. The model uses `Option` for those, or the empty string for a missing text field.
- The legacy `getElapsedTime` returns `timer.formatted_time`, which is undefined on the null timer. The model returns `Option<string>` for it.
- `useElapsedTime` imports `getElapsedTime` from `"../utils"`. That path is ambiguous, and the files shown support both readings. Neither `src/utils/index.ts` nor the build configuration is part of this model.
  - For `src/utils.ts`: TypeScript resolves a file `utils.ts` ahead of a directory index `utils/index.ts`, and `src/utils.ts` exports a legacy `getElapsedTime`. src/hooks/useEntries.ts:6 imports `formattedDate` from the same path, and only `src/utils.ts` defines and exports that name (src/utils.ts:29 and 83).
  - For an index over `src/utils/`: other importers of the same path use names that `src/utils.ts` does not export, such as `getEntriesSummary` (src/components/EntriesSummary.tsx:4), `formatTags` (src/components/EntryItem.tsx:4) and `createTimerNull` (src/hooks/useApiData.ts:11).
  - The hook is modelled with the time-utils `getElapsedTime`. ElapsedTimeHook.ShownWhileRunning and LegacyUtils.ElapsedVersionsAgree bridge the two readings: while the timer runs both versions show the same text, and for a stopped timer the legacy one returns the server's `formatted_time` instead of formatting `seconds`.
- The null timer that `createTimerNull` builds is defined from the `TimerNullType` record. `createTimerNull` is not part of this model.

## Model

| member | source | states |
|---|---|---|
| JsNumber.FloorDiv | src/utils/time-utils.ts:4 | `Math.floor(a/d)` is the q with d·q ≤ a < d·q + d |
| JsNumber.Rem | src/utils/time-utils.ts:5 | JavaScript `%`: a = d·trunc(a/d) + r, with magnitude below the divisor and the sign of the dividend |
| JsNumber.RemExamples | src/utils/time-utils.ts:68-69 | 5 % 60 = 5, −90 % 60 = −30, 3661 % 3600 = 61 |
| JsNumber.Round | src/utils/time-utils.ts:58 | `Math.round(n/d)` is the nearest integer, halves up: 2d·r − d ≤ 2n < 2d·r + d |
| JsNumber.RoundShift | src/utils/time-utils.ts:58 | adding k whole minutes of seconds adds exactly k to the rounded minutes |
| JsNumber.ParseIntStopsAtNonDigit | src/utils/time-utils.ts:31-32 | `parseInt` reads a digit run up to the first non-digit, as its decimal value |
| JsNumber.ParseIntSigned | src/utils/time-utils.ts:31-32 | `parseInt` skips leading whitespace, applies one optional sign to the digit run after it, and ignores the text after the digits |
| JsNumber.NumberDigits | src/utils/time-utils.ts:55 | `Number` reads a plain digit run as its decimal value |
| JsNumber.NumberTrimsAndSigns | src/utils/time-utils.ts:55 | `Number` ignores whitespace around an optionally signed digit run and applies the sign |
| Strings.NatToStringSpec | src/utils/time-utils.ts:7-8 | `String(n)` is a run of digits with value n, without a leading zero, one digit below 10 and at most two below 100 |
| Strings.PadDigits | src/utils/time-utils.ts:7-8 | `padStart(2, "0")` keeps the value and gives at least two digits, exactly two below 100 |
| Strings.JoinSplit | src/utils/description-utils.ts:5 | joining the pieces of a `split` with the same separator restores the string |
| Strings.SplitJoin | src/utils/user-utils.ts:16 | splitting a join restores the pieces when no piece contains the separator |
| Strings.SplitCount | src/utils/time-utils.ts:29 | `split` gives one piece more than there are separators, and no piece holds one |
| Strings.TrimSpec | src/utils/time-utils.ts:20 | `trim` removes whitespace only at the two ends and leaves none there |
| Strings.TrimStartAppend | src/utils/description-utils.ts:5 | how leading whitespace is trimmed from a concatenation |
| Strings.TrimEndAppend | src/utils/description-utils.ts:5 | how trailing whitespace is trimmed from a concatenation |
| TimeUtils.HoursFormatFields | src/utils/time-utils.ts:3-11 | for m ≥ 0, `hoursFormat` gives two colon-separated fields: hours with at least two digits, minutes with exactly two digits below 60, together reading back as m |
| TimeUtils.ParseHoursFormat | src/utils/time-utils.ts:3-11 | an "HH:MM" rendering is accepted by `parseTimeInput` as the same minutes |
| TimeUtils.FormatMinutesAsTimeFields | src/utils/time-utils.ts:13-17 | `formatMinutesAsTime` gives unpadded hours and two-digit minutes below 60, reading back as the count |
| TimeUtils.ParseFormatMinutesAsTime | src/utils/time-utils.ts:13-50 | what the form pre-fills with `formatMinutesAsTime` parses back to the same minutes |
| TimeUtils.FormatExamples | src/utils/time-utils.ts:3-17 | 90 → "01:30", 2160 → "36:00", 15 → "0:15" |
| TimeUtils.ParseTimeInputRequired | src/utils/time-utils.ts:20-26 | the "Time is required" error is raised exactly when the trimmed input is empty |
| TimeUtils.ParseTimeInputColon | src/utils/time-utils.ts:28-39 | trimmed input with exactly two colon fields is accepted iff both fields parse as integers and the minutes are below 60; the result is then hours·60 + minutes, otherwise the h:mm error |
| TimeUtils.ColonFallsThrough | src/utils/time-utils.ts:28-42 | colon input with other than two fields falls through to the bare-number branch |
| TimeUtils.ParseBareInteger | src/utils/time-utils.ts:42-49 | a digit run not followed by '.', 'e' or 'E' is read by `parseFloat` as those minutes |
| TimeUtils.ParseBareSigned | src/utils/time-utils.ts:42-49 | `parseFloat` of an optionally signed digit run not followed by '.', 'e' or 'E' gives those minutes, negated after '-' |
| TimeUtils.ParseBareFraction | src/utils/time-utils.ts:42-49 | a digit run followed by '.', 'e' or 'E' is a fraction or exponent form and is returned as `Uninterpreted` |
| TimeUtils.ParseBareWithoutDigits | src/utils/time-utils.ts:42-47 | with no digit after the optional sign, "Infinity" and a point followed by a digit are `Uninterpreted`; everything else is the number-format error |
| TimeUtils.ParseNegativeMinutesExample | src/utils/time-utils.ts:42-49 | "-15" is −15 minutes |
| TimeUtils.ParseBareRejects | src/utils/time-utils.ts:42-47 | text that cannot start a number raises the number-format error |
| TimeUtils.ParsePlainMinutes | src/utils/time-utils.ts:19-49 | whole minutes typed as a plain number are accepted as themselves |
| TimeUtils.ParseBlankExample | src/utils/time-utils.ts:22-26 | blank input gives the "required" error |
| TimeUtils.ParseMinutesOverflowExample | src/utils/time-utils.ts:34-36 | "1:60" gives the h:mm error |
| TimeUtils.ParseThreeFieldsExample | src/utils/time-utils.ts:28-49 | "1:2:3" is not rejected: `parseFloat` reads 1 |
| TimeUtils.ParseNegativeHoursExample | src/utils/time-utils.ts:31-38 | "-1:30" is -30 minutes: the sign applies to the hours only |
| TimeUtils.ParseBlankMinutesExample | src/utils/time-utils.ts:31-38 | "1: 30" is 90 minutes: `parseInt` skips the blank after the colon |
| TimeUtils.FormatTimeShortSplit | src/utils/time-utils.ts:66-75 | below one hour `formatTime` gives padded minutes and seconds |
| TimeUtils.FormatTimeLongSplit | src/utils/time-utils.ts:66-75 | from one hour on `formatTime` gives padded hours, minutes of the hour and seconds of the minute |
| TimeUtils.FormatTimeDecodes | src/utils/time-utils.ts:66-75 | `formatTime` loses nothing: reading the fields back as H·3600 + M·60 + S gives the count |
| TimeUtils.FormatTimeExamples | src/utils/time-utils.ts:66-75 | 0 → "00:00", 3599 → "59:59", 3600 → "01:00:00" |
| TimeUtils.ConvertRoundsDuration | src/utils/time-utils.ts:52-64 | `convertElapsedTimeToMinutes` is the clock string's seconds rounded to the nearest minute |
| TimeUtils.ConvertFallbacks | src/utils/time-utils.ts:52-64 | text with other than two or three fields converts to 0; the result is NaN exactly when there are two or three fields and the reference reading rejects one of them |
| TimeUtils.ConvertNoColonExample | src/utils/time-utils.ts:63 | "90" has one field and converts to 0 |
| TimeUtils.ConvertFormatTime | src/utils/time-utils.ts:52-75 | converting a `formatTime` rendering gives (s + 30) div 60 |
| TimeUtils.ConvertWholeMinutes | src/utils/time-utils.ts:52-75 | whole minutes survive `formatTime` then conversion unchanged |
| TimeUtils.LogTimerRoundTrip | src/utils/time-utils.ts:13-75 | logging a timer submits its elapsed seconds rounded to the nearest minute: convert, pre-fill as H:MM, parse |
| TimeUtils.ElapsedFrozenUnlessRunning | src/utils/time-utils.ts:82-84 | a timer that is not running shows its stored seconds |
| TimeUtils.ElapsedWhileRunning | src/utils/time-utils.ts:86-90 | a running timer shows its seconds plus the whole seconds since the fetch |
| TimeUtils.ElapsedAtFetch | src/utils/time-utils.ts:86-90 | within the first second after the fetch a running timer shows exactly its seconds |
| TimeUtils.ElapsedMonotone | src/utils/time-utils.ts:86-90 | the seconds shown for a running timer never decrease as the current instant advances |
| EntryUtils.MinutesPartition | src/utils/entry-utils.ts:28 | total minutes = billable + unbillable |
| EntryUtils.SumsOfConcat | src/utils/entry-utils.ts:17-28 | the total, billable and unbillable sums add up over concatenated entry lists |
| EntryUtils.BillableWithinTotal | src/utils/entry-utils.ts:17-28 | without negative entries, 0 ≤ billable ≤ total |
| EntryUtils.AccumulateSums | src/utils/entry-utils.ts:17-26 | the `reduce` adds the total and billable minutes of the entries to its start value |
| EntryUtils.CalculateEntrySummary | src/utils/entry-utils.ts:4-40 | totals equal the reference sums of all, billable and non-billable entries; the count is the number of entries; each sum is shown as "HH:MM", including the "00:00" of the empty list |
| EntryUtils.BillablePercentage | src/utils/entry-utils.ts:51-54 | the percentage is the integer nearest to 100·billable/total, halves up, and 0 for a non-positive total |
| EntryUtils.PercentageBounds | src/utils/entry-utils.ts:51-54 | for 0 ≤ billable ≤ total the percentage lies in 0..100 |
| EntryUtils.PercentageExtremes | src/utils/entry-utils.ts:51-54 | no billable time is 0%, all billable is 100% |
| EntryUtils.PercentageExamples | src/utils/entry-utils.ts:51-54 | 200 of 300 minutes → 67%, 90 of 150 → 60% |
| EntryUtils.GetEntriesSummary | src/utils/entry-utils.ts:49-67 | `exists` iff there are entries; the title is "Total" then the "HH:MM" of the reference total, billable and unbillable sums separated by " • "; the subtitle is the entry count with its noun, " • " and the billable percentage of the sums; billable and unbillable are the "HH:MM" of the sums |
| EntryUtils.EntryCountLabelNoun | src/utils/entry-utils.ts:57 | the noun is "entry" exactly for a count of 1, "entries" otherwise |
| EntryUtils.DayHeaderExample | src/utils/entry-utils.ts:49-67 | 60 billable and 90 unbillable minutes read "Total 02:30 • Billable 01:00 • Unbillable 01:30" over "2 entries • 40% billable" |
| EntryUtils.GetWeekSummary | src/utils/entry-utils.ts:69-95 | an empty week has all fields empty and `exists` false; otherwise the title is "Week" followed by the same sums as the day title, the subtitle is the day's, and the total, billable and unbillable fields are the "HH:MM" of the reference sums |
| EntryUtils.WeekMatchesDay | src/utils/entry-utils.ts:49-95 | on non-empty entries the week header equals the day header except for "Week" in place of "Total" |
| EntryUtils.EmptySummaries | src/utils/entry-utils.ts:49-79 | an empty day reads "0 entries • 0% billable", titled "Total 00:00 • Billable 00:00 • Unbillable 00:00", with "00:00" billable and unbillable times; an empty week has an empty title |
| EntryUtils.EntryDecorator | src/utils/entry-utils.ts:42-47 | same length; each entry's `formatted_minutes` is the "HH:MM" of its minutes; every other field is unchanged |
| EntryUtils.DecoratorFixedPoint | src/utils/entry-utils.ts:42-47 | decorating leaves a list unchanged iff it is already decorated |
| EntryUtils.DecoratorIdempotent | src/utils/entry-utils.ts:42-47 | decorating twice is decorating once |
| EntryUtils.DecoratorKeepsSums | src/utils/entry-utils.ts:42-47 | decorating changes no total |
| TimerUtils.TimerStatePriority | src/utils/timer-utils.ts:4-8 | priority 1 iff running, 2 iff paused, 3 iff any other or null state |
| TimerUtils.SortedGroupsStates | src/constants.ts:79-83 | in any sequence ordered by ascending priority, running timers precede all others and paused ones precede the rest (the sort itself is not modelled) |
| TimerUtils.PriorityRanks | src/constants.ts:79-83 | priorities lie in 1..3 with running < paused < null |
| UserUtils.UserName | src/utils/user-utils.ts:3-8 | empty iff there is no user or the first name, last name or e-mail is empty |
| UserUtils.UserNameReadsBack | src/utils/user-utils.ts:7 | a non-empty name reads back field by field: the first name, a space, the last name, " <", the e-mail and ">" |
| UserUtils.FormatTagsCons | src/utils/user-utils.ts:16 | a tag list reads as its first name, ", " and the rest of the list |
| UserUtils.FormatTagsLength | src/utils/user-utils.ts:16 | the text is the names plus two characters per separator |
| UserUtils.FormatTagsSmall | src/utils/user-utils.ts:13-16 | missing and empty lists give "", one tag gives its formatted name |
| DescriptionUtils.CombinedIsTrimmed | src/utils/description-utils.ts:1-6 | the result has no whitespace at either end and is the description, a space and the tags with only outer whitespace removed |
| DescriptionUtils.CombineWithoutTags | src/utils/description-utils.ts:1-6 | without tags the result is the trimmed description |
| DescriptionUtils.CombineVerbatim | src/utils/description-utils.ts:1-6 | a trimmed description and tags that end in a non-blank character are joined verbatim with single spaces |
| DescriptionUtils.CombineWithoutDescription | src/utils/description-utils.ts:1-6 | an empty description leaves just the space-joined tags |
| LegacyUtils.CopiesAgree | src/utils.ts:9-55 | the legacy `hoursFormat`, `entryDecorator` and `formatTime` compute what the current ones do on every input |
| LegacyUtils.ElapsedVersionsAgree | src/utils.ts:57-74 | legacy and current `getElapsedTime` agree on running timers; on stopped ones the legacy one returns the server's `formatted_time` |
| LegacyUtils.ElapsedOfNullTimer | src/utils.ts:62-64 | on the null timer the legacy version has nothing to show, where the current one shows "00:00" |
| LegacyUtils.UserName | src/utils.ts:76-81 | empty iff there is no user or the first or last name is empty |
| LegacyUtils.UserNameVersions | src/utils.ts:76-81 | the two `userName` versions differ exactly for a named user without an e-mail, which the legacy one renders as "First Last <>" |
| ElapsedTimeHook.StepKeepsValid | src/hooks/useElapsedTime.ts:9-19 | an interval is live exactly while the mounted timer runs, there is at most one, and every event preserves this |
| ElapsedTimeHook.RunKeepsValid | src/hooks/useElapsedTime.ts:9-19 | the same invariant holds after any sequence of events |
| ElapsedTimeHook.MountAnchors | src/hooks/useElapsedTime.ts:6-19 | mounting sets both instants to the mount time and subscribes only a running timer |
| ElapsedTimeHook.FetchTimeFixed | src/hooks/useElapsedTime.ts:7 | after mounting the fetch instant never changes |
| ElapsedTimeHook.UnmountedIsFinal | src/hooks/useElapsedTime.ts:18 | after unmounting no event has any effect |
| ElapsedTimeHook.TickEffect | src/hooks/useElapsedTime.ts:14-16 | a tick moves the current instant only while its interval is live; a stopped timer's tick changes nothing |
| ElapsedTimeHook.CurrentTimeOnlyOnTick | src/hooks/useElapsedTime.ts:6-19 | the current instant changes only at the first render or on a live interval tick; re-rendering and unmounting leave it alone |
| ElapsedTimeHook.TickShowsElapsed | src/hooks/useElapsedTime.ts:21-23 | after a live tick the hook shows the `formatTime` rendering of the timer's seconds plus the whole seconds since mounting |
| ElapsedTimeHook.ShownWhileRunning | src/utils.ts:57-74 | while the timer runs, the legacy `getElapsedTime` shows the same text as the one the hook uses |
| ElapsedTimeHook.PauseClears | src/hooks/useElapsedTime.ts:9-19 | a change away from running clears the interval |
| ElapsedTimeHook.ResumeSubscribes | src/hooks/useElapsedTime.ts:9-19 | a change to running installs exactly one interval with a new handle |
| ElapsedTimeHook.SameStateKeepsInterval | src/hooks/useElapsedTime.ts:19 | a new timer object in the same state keeps the interval and both instants |
| ApiData.AbsoluteUrl | src/hooks/useApiData.ts:27-29 | the URL always starts with "http", and an endpoint that already does is used unchanged |
| ApiData.AbsoluteUrlAppends | src/hooks/useApiData.ts:27-29 | a relative endpoint is appended to the Noko base URL unchanged |
| ApiData.AbsoluteUrlIdempotent | src/hooks/useApiData.ts:27-29 | making a URL absolute twice changes nothing more |
| ApiData.UseApiData | src/hooks/useApiData.ts:24-35 | `execute` and `keepPreviousData` default to true and are false only when set to false |
| ApiData.UseEntries | src/hooks/useApiData.ts:67-72 | the entries request runs iff the date filter is non-empty, for that date as both bounds |
| ApiData.UseTimer | src/hooks/useApiData.ts:86-106 | the timer request runs iff a non-empty project id is given (a null id is spelt "null" in the path) and keeps previous data; without a response the view gets the null timer |
| ApiData.TimerMap | src/hooks/useApiData.ts:75-83 | the map's keys are exactly the project ids in the listing |
| ApiData.TimerMapLastWins | src/hooks/useApiData.ts:78-80 | a project id maps to the timer at its last occurrence |
| ApiData.AttachTimers | src/hooks/useApiData.ts:123-128 | every project, in order and otherwise unchanged, gets its mapped timer or the null timer |
| ApiData.AttachedTimer | src/hooks/useApiData.ts:123-128 | a project with no listed timer gets the null timer; otherwise it gets its last listed timer |
| ApiData.UseProjectsWithTimers | src/hooks/useApiData.ts:109-130 | loading iff either request is loading; the data is the merge of the projects with the timer listing, missing data read as empty lists, so without a timer listing every project gets the null timer |
| ApiData.FixedEndpointRequests | src/hooks/useApiData.ts:39-65 | `useTimers`, `useProjects` and `useTags` request their fixed endpoints under the base URL with the default options |

## Left out

- HTTP, the Raycast API, React rendering and the views are not modelled. A response is a parameter.
- Date filters and the legacy `dateFormat`/`formattedDate` are not modelled. They read the system clock.
- Instants are integers (milliseconds). The real clock and `setInterval` scheduling become `Mount`/`Tick` events that carry the instant.
- EntryUtils.BillablePercentage: computes the exact rational nearest integer. JavaScript computes `billable / total * 100` in floating point, which can land just below a half: 57 of 200 gives 28.499999999999996 and rounds to 28, where the model gives 29.
- JsNumber.ToString and JsNumber.Number: only integers are rendered and read. Fractional minutes or seconds, exponents, hexadecimal and `Infinity` give `None` from `Number` instead of a value.
- TimeUtils.ParseBareNumber: fractions, exponents and `Infinity` accepted by `parseFloat` are returned as `Uninterpreted(text)`, not as a number.
- TimeUtils.ConvertElapsedTimeToMinutes: the NaN results of non-numeric fields are `None`. They do not propagate a floating-point value.
- JavaScript 64-bit floating point, and the precision lost above 2^53, are not modelled.
- UserUtils.UserName and LegacyUtils.UserName: a `null` or `undefined` name field is modelled as the empty string. Both are falsy in the source.
- UserUtils.FormatTags: a tag without `formatted_name` is not modelled. `join` would render it as an empty string.
- `createTimerNull` is not part of this model. The null timer is the `TimerNullType` record, with an absent `formatted_time`.
- `useTimers`, `useProjects` and `useTags` only add a fixed endpoint or an `|| []` default. Their requests appear in ApiData.FixedEndpointRequests. The `|| []` default of `useTimers` is not modelled separately.
- The `refresh` callbacks of `useProjectsWithTimers` only trigger refetches.
- `Valid` in ElapsedTimeHook does not track React's batching or the order of effect cleanups within one render. Each event is applied atomically.

=== FILE: api_data.dfy ===
/**
 * The data hooks of src/hooks/useApiData.ts, reduced to what they compute:
 * the request each hook issues (absolute URL, whether it runs, whether it
 * keeps previous data) and how responses are turned into the data the views
 * receive. The HTTP exchange itself is a parameter: a response is the fetched
 * value, or None while there is none.
 */
module ApiData {
  import opened Strings
  import opened Optional
  import opened Types

  const BaseUrl := "https://api.nokotime.com/v2"

  /** An endpoint that already starts with "http" is used as is; any other is appended to the base URL. */
  function AbsoluteUrl(endpoint: string): (url: string)
    ensures StartsWith(url, "http")
    ensures StartsWith(endpoint, "http") ==> url == endpoint
  {
    if StartsWith(endpoint, "http") then endpoint
    else
      assert (BaseUrl + endpoint)[..4] == BaseUrl[..4];
      BaseUrl + endpoint
  }

  /** A path that starts with '/' is relative. */
  lemma SlashIsRelative(endpoint: string)
    requires endpoint != [] && endpoint[0] == '/'
    ensures !StartsWith(endpoint, "http")
  {
    if |endpoint| >= 4 {
      assert endpoint[..4][0] == '/';
    }
  }

  /** A relative endpoint is the tail of its absolute URL after the base. */
  lemma AbsoluteUrlAppends(endpoint: string)
    requires !StartsWith(endpoint, "http")
    ensures |AbsoluteUrl(endpoint)| == |BaseUrl| + |endpoint|
    ensures AbsoluteUrl(endpoint)[..|BaseUrl|] == BaseUrl
    ensures AbsoluteUrl(endpoint)[|BaseUrl|..] == endpoint
  {
  }

  /** Making an URL absolute twice changes nothing more. */
  lemma AbsoluteUrlIdempotent(endpoint: string)
    ensures AbsoluteUrl(AbsoluteUrl(endpoint)) == AbsoluteUrl(endpoint)
  {
  }

  /** The hook options; a missing field is None. */
  datatype FetchOptions = FetchOptions(enabled: Option<bool>, keepPreviousData: Option<bool>)

  /** What `useFetch` is called with. */
  datatype Request = Request(url: string, keepPreviousData: bool, execute: bool)

  /** `useApiData`: both options default to true when missing. */
  function UseApiData(endpoint: string, options: Option<FetchOptions>): (r: Request)
    ensures r.url == AbsoluteUrl(endpoint)
    ensures r.execute <==> options.None? || options.value.enabled != Some(false)
    ensures r.keepPreviousData <==> options.None? || options.value.keepPreviousData != Some(false)
  {
    var opts := options.GetOr(FetchOptions(None, None));
    Request(AbsoluteUrl(endpoint), opts.keepPreviousData.GetOr(true), opts.enabled.GetOr(true))
  }

  /** `useEntries`: one day's entries of the current user; nothing is fetched for an empty date. */
  function UseEntries(dateFilter: string): (r: Request)
    ensures r.execute <==> dateFilter != ""
    ensures r.keepPreviousData
    ensures r.url == BaseUrl + "/current_user/entries?from=" + dateFilter + "&to=" + dateFilter
  {
    var endpoint := "/current_user/entries?from=" + dateFilter + "&to=" + dateFilter;
    SlashIsRelative(endpoint);
    UseApiData(endpoint, Some(FetchOptions(Some(dateFilter != ""), None)))
  }

  /** `String(projectId)` inside the timer path: a null id is spelt "null". */
  function ProjectIdText(projectId: Option<string>): string {
    match projectId
    case None => "null"
    case Some(id) => id
  }

  /** `useTimer`: the project's timer request and the timer the view gets. */
  datatype TimerData = TimerData(request: Request, timer: Timer)

  function UseTimer(projectId: Option<string>, response: Option<Timer>): (r: TimerData)
    ensures r.request.execute <==> projectId.Some? && projectId.value != ""
    ensures r.request.url == BaseUrl + "/projects/" + ProjectIdText(projectId) + "/timer"
    ensures r.request.keepPreviousData
    ensures response.Some? ==> r.timer == response.value
    ensures response.None? ==> r.timer == NullTimer
  {
    var endpoint := "/projects/" + ProjectIdText(projectId) + "/timer";
    SlashIsRelative(endpoint);
    var enabled := projectId.Some? && projectId.value != "";
    TimerData(UseApiData(endpoint, Some(FetchOptions(Some(enabled), None))), response.GetOr(NullTimer))
  }

  /** `useTimerMap`: project id to timer, inserted in list order so that a later timer for the same project wins. */
  function TimerMap(apiTimers: seq<ApiTimer>): (m: map<string, Timer>)
    ensures forall k :: k in m <==> exists i :: 0 <= i < |apiTimers| && apiTimers[i].projectId == k
  {
    if apiTimers == [] then map[]
    else
      var last := apiTimers[|apiTimers| - 1];
      var m := TimerMap(apiTimers[..|apiTimers| - 1]);
      assert forall i :: 0 <= i < |apiTimers| - 1 ==> apiTimers[..|apiTimers| - 1][i] == apiTimers[i];
      m[last.projectId := last.timer]
  }

  /** Position i holds the last timer of the list that belongs to project `id`. */
  predicate LastTimerOf(apiTimers: seq<ApiTimer>, i: int, id: string) {
    && 0 <= i < |apiTimers| && apiTimers[i].projectId == id
    && forall j :: i < j < |apiTimers| ==> apiTimers[j].projectId != id
  }

  /** The timer a project id maps to is the one at its last occurrence in the list. */
  lemma {:induction false} TimerMapLastWins(apiTimers: seq<ApiTimer>, i: int)
    requires 0 <= i < |apiTimers|
    requires forall j :: i < j < |apiTimers| ==> apiTimers[j].projectId != apiTimers[i].projectId
    ensures TimerMap(apiTimers)[apiTimers[i].projectId] == apiTimers[i].timer
    decreases |apiTimers|
  {
    var n := |apiTimers| - 1;
    if i < n {
      var prefix := apiTimers[..n];
      assert prefix[i] == apiTimers[i];
      forall j | i < j < |prefix|
        ensures prefix[j].projectId != prefix[i].projectId
      {
        assert prefix[j] == apiTimers[j];
      }
      TimerMapLastWins(prefix, i);
      assert apiTimers[n].projectId != apiTimers[i].projectId;
      assert TimerMap(apiTimers) == TimerMap(prefix)[apiTimers[n].projectId := apiTimers[n].timer];
    }
  }

  /** A project's timer: its entry in the map, or the null object when it has none. */
  function TimerFor(timerMap: map<string, Timer>, projectId: string): Timer {
    if projectId in timerMap then timerMap[projectId] else NullTimer
  }

  /** The merge in `useProjectsWithTimers`: every project, in order, with its timer attached. */
  function AttachTimers(projects: seq<Project>, apiTimers: seq<ApiTimer>): (r: seq<Project>)
    ensures |r| == |projects|
    ensures forall i :: 0 <= i < |r| ==>
      r[i].(timer := projects[i].timer) == projects[i]
      && r[i].timer == TimerFor(TimerMap(apiTimers), projects[i].id)
  {
    var timerMap := TimerMap(apiTimers);
    seq(|projects|, i requires 0 <= i < |projects| => projects[i].(timer := TimerFor(timerMap, projects[i].id)))
  }

  /**
   * A project without a timer in the listing gets the null object; one with
   * timers gets the last of them.
   */
  lemma AttachedTimer(projects: seq<Project>, apiTimers: seq<ApiTimer>, p: int)
    requires 0 <= p < |projects|
    ensures (forall j :: 0 <= j < |apiTimers| ==> apiTimers[j].projectId != projects[p].id) ==>
      AttachTimers(projects, apiTimers)[p].timer == NullTimer
    ensures forall i :: LastTimerOf(apiTimers, i, projects[p].id) ==>
      AttachTimers(projects, apiTimers)[p].timer == apiTimers[i].timer
  {
    forall i | LastTimerOf(apiTimers, i, projects[p].id)
      ensures AttachTimers(projects, apiTimers)[p].timer == apiTimers[i].timer
    {
      TimerMapLastWins(apiTimers, i);
    }
  }

  datatype ProjectsWithTimers = ProjectsWithTimers(data: seq<Project>, isLoading: bool)

  /**
   * `useProjectsWithTimers`: the enabled projects with their timers attached,
   * a missing response read as an empty list, loading while either request is.
   */
  function UseProjectsWithTimers(
    projects: Option<seq<Project>>, projectsLoading: bool,
    apiTimers: Option<seq<ApiTimer>>, timersLoading: bool): (r: ProjectsWithTimers)
    ensures r.isLoading <==> projectsLoading || timersLoading
    ensures projects.None? ==> r.data == []
    ensures projects.Some? ==> |r.data| == |projects.value|
    ensures r.data == AttachTimers(projects.GetOr([]), apiTimers.GetOr([]))
    ensures apiTimers.None? ==> forall i :: 0 <= i < |r.data| ==> r.data[i].timer == NullTimer
  {
    ProjectsWithTimers(AttachTimers(projects.GetOr([]), apiTimers.GetOr([])), projectsLoading || timersLoading)
  }

  /**
   * The fixed-endpoint hooks `useTimers`, `useProjects` and `useTags`, whose
   * first two also feed `useProjectsWithTimers`: each requests its endpoint
   * under the base URL with the default options.
   */
  lemma FixedEndpointRequests()
    ensures UseApiData("/timers", None) == Request(BaseUrl + "/timers", true, true)
    ensures UseApiData("/projects?enabled=true", None) == Request(BaseUrl + "/projects?enabled=true", true, true)
    ensures UseApiData("/tags", None) == Request(BaseUrl + "/tags", true, true)
  {
    SlashIsRelative("/timers");
    SlashIsRelative("/projects?enabled=true");
    SlashIsRelative("/tags");
  }
}

=== FILE: description_utils.dfy ===
/**
 * The text sent as an entry's description (src/utils/description-utils.ts):
 * the free-form description followed by the tags, separated by spaces and
 * trimmed.
 */
module DescriptionUtils {
  import opened Strings

  /** `combineDescriptionAndTags`: `description + " " + tags.join(" ")`, trimmed. */
  function CombineDescriptionAndTags(description: string, tags: seq<string>): string {
    Trim(description + " " + Join(tags, " "))
  }

  /**
   * The combined text has no whitespace at either end, and is what lies
   * between whitespace-only ends of the description, a space and the tags.
   */
  lemma CombinedIsTrimmed(description: string, tags: seq<string>)
    ensures Trimmed(CombineDescriptionAndTags(description, tags))
    ensures exists i, j ::
              && 0 <= i <= j <= |description| + 1 + |Join(tags, " ")|
              && CombineDescriptionAndTags(description, tags) == (description + " " + Join(tags, " "))[i..j]
              && AllWhitespace((description + " " + Join(tags, " "))[..i])
              && AllWhitespace((description + " " + Join(tags, " "))[j..])
  {
    var full := description + " " + Join(tags, " ");
    TrimSpec(full);
    var i, j :| 0 <= i <= j <= |full| && Trim(full) == full[i..j] && AllWhitespace(full[..i]) && AllWhitespace(full[j..]);
    assert 0 <= i <= j <= |full| && CombineDescriptionAndTags(description, tags) == full[i..j]
      && AllWhitespace(full[..i]) && AllWhitespace(full[j..]);
  }

  /** An all-whitespace text trims from the start to nothing. */
  lemma TrimStartBlank(s: string)
    requires AllWhitespace(s)
    ensures TrimStart(s) == []
  {
    TrimStartAppend(s, []);
    assert s + [] == s;
  }

  /** Without tags the result is the trimmed description: the separating space does not survive. */
  lemma CombineWithoutTags(description: string)
    ensures CombineDescriptionAndTags(description, []) == Trim(description)
  {
    assert description + " " + Join([], " ") == description + " ";
    TrimStartAppend(description, " ");
    if AllWhitespace(description) {
      TrimStartBlank(description);
      TrimStartBlank(" ");
    } else {
      TrimEndAppend(TrimStart(description), " ");
    }
  }

  /**
   * A trimmed, non-empty description and tags that end in a non-blank character
   * are combined verbatim, with a single space between them.
   */
  lemma CombineVerbatim(description: string, tags: seq<string>)
    requires description != [] && Trimmed(description)
    requires |tags| >= 1 && tags[|tags| - 1] != [] && Trimmed(tags[|tags| - 1])
    ensures CombineDescriptionAndTags(description, tags) == description + " " + Join(tags, " ")
  {
    var full := description + " " + Join(tags, " ");
    JoinLast(tags, " ");
    assert full[0] == description[0];
    assert full[|full| - 1] == Join(tags, " ")[|Join(tags, " ")| - 1];
    TrimmedIsFixed(full);
  }

  /** With an empty description the leading space is trimmed away and the tags remain. */
  lemma CombineWithoutDescription(tags: seq<string>)
    requires |tags| >= 1 && tags[0] != [] && !IsWhitespace(tags[0][0])
    requires tags[|tags| - 1] != [] && !IsWhitespace(tags[|tags| - 1][|tags[|tags| - 1]| - 1])
    ensures CombineDescriptionAndTags("", tags) == Join(tags, " ")
  {
    var j := Join(tags, " ");
    JoinFirst(tags, " ");
    JoinLast(tags, " ");
    assert "" + " " + j == " " + j;
    TrimStartAppend(" ", j);
    assert TrimStart(j) == j;
    TrimmedIsFixed(j);
  }
}

=== FILE: elapsed_time_hook.dfy ===
/**
 * The `useElapsedTime` hook (src/hooks/useElapsedTime.ts) as a state machine.
 *
 * The hook keeps two instants from its first render: `currentTime`, replaced
 * on every interval tick, and `fetchTime`, never replaced. An effect keyed on
 * the timer's state installs a one-second interval while the state is
 * "running" and clears it when the state changes or the component unmounts.
 * The value shown is `getElapsedTime` of the current timer and the two
 * instants. The hook imports it from "../utils", which may mean src/utils.ts
 * or the src/utils/ modules; the time-utils version is shown here, and while
 * the timer runs the legacy version of src/utils.ts shows the same text
 * (ShownWhileRunning). Instants are milliseconds; the clock is an event
 * parameter.
 */
module ElapsedTimeHook {
  import opened Optional
  import opened Types
  import TimeUtils
  import LegacyUtils

  datatype Phase = Fresh | Mounted | Unmounted

  /**
   * The hook's state: its phase, the timer it was last rendered with, its two
   * instants, the live interval handles and the next handle to hand out.
   */
  datatype Hook = Hook(phase: Phase, timer: Timer, currentTime: int, fetchTime: int, ticks: set<nat>, nextHandle: nat)

  datatype Event =
    | Mount(timer: Timer, now: int)     // first render
    | Tick(handle: nat, now: int)       // an interval callback fires
    | ChangeTimer(timer: Timer)         // re-render with another timer object
    | Unmount                           // the component goes away

  const Initial := Hook(Fresh, NullTimer, 0, 0, {}, 0)

  /** The effect body: install an interval when the state is running, otherwise nothing. */
  function Subscribe(h: Hook): Hook {
    if h.timer.state == Running then h.(ticks := {h.nextHandle}, nextHandle := h.nextHandle + 1) else h
  }

  function Step(h: Hook, e: Event): Hook {
    match e
    case Mount(timer, now) =>
      if h.phase == Fresh then Subscribe(h.(phase := Mounted, timer := timer, currentTime := now, fetchTime := now))
      else h
    case Tick(handle, now) =>
      if h.phase == Mounted && handle in h.ticks then h.(currentTime := now) else h
    case ChangeTimer(timer) =>
      if h.phase != Mounted then h
      else if timer.state == h.timer.state then h.(timer := timer)
      else Subscribe(h.(timer := timer, ticks := {}))
    case Unmount =>
      if h.phase == Mounted then h.(phase := Unmounted, ticks := {}) else h
  }

  function Run(h: Hook, events: seq<Event>): Hook
    decreases |events|
  {
    if events == [] then h else Run(Step(h, events[0]), events[1..])
  }

  /** What the hook returns while mounted. */
  function Shown(h: Hook): string {
    TimeUtils.GetElapsedTime(h.timer, h.currentTime, h.fetchTime)
  }

  /** While the timer runs, the legacy `getElapsedTime` would show the same text. */
  lemma ShownWhileRunning(h: Hook)
    requires h.timer.state == Running
    ensures LegacyUtils.GetElapsedTime(h.timer, h.currentTime, h.fetchTime) == Some(Shown(h))
  {
    LegacyUtils.ElapsedVersionsAgree(h.timer, h.currentTime, h.fetchTime);
  }

  /**
   * An interval is live exactly while the mounted timer runs, there is at most
   * one, and every handle was handed out before.
   */
  predicate Valid(h: Hook) {
    && (h.ticks != {} <==> h.phase == Mounted && h.timer.state == Running)
    && (forall t :: t in h.ticks ==> t < h.nextHandle)
    && (forall t, u :: t in h.ticks && u in h.ticks ==> t == u)
  }

  lemma InitialValid()
    ensures Valid(Initial)
  {
  }

  /** Every event keeps the hook valid. */
  lemma StepKeepsValid(h: Hook, e: Event)
    requires Valid(h)
    ensures Valid(Step(h, e))
  {
  }

  /** Any sequence of events keeps the hook valid. */
  lemma {:induction false} RunKeepsValid(h: Hook, events: seq<Event>)
    requires Valid(h)
    ensures Valid(Run(h, events))
    decreases |events|
  {
    if events != [] {
      StepKeepsValid(h, events[0]);
      RunKeepsValid(Step(h, events[0]), events[1..]);
    }
  }

  /** Mounting anchors both instants at the mount instant and subscribes only a running timer. */
  lemma MountAnchors(timer: Timer, now: int)
    ensures var h := Step(Initial, Mount(timer, now));
      && h.phase == Mounted && h.timer == timer
      && h.currentTime == now && h.fetchTime == now
      && (h.ticks != {} <==> timer.state == Running)
  {
  }

  /** Once mounted, nothing replaces the fetch instant. */
  lemma {:induction false} FetchTimeFixed(h: Hook, events: seq<Event>)
    requires h.phase != Fresh
    ensures Run(h, events).fetchTime == h.fetchTime
    ensures Run(h, events).phase != Fresh
    decreases |events|
  {
    if events != [] {
      FetchTimeFixed(Step(h, events[0]), events[1..]);
    }
  }

  /** After unmounting no event has any effect. */
  lemma {:induction false} UnmountedIsFinal(h: Hook, events: seq<Event>)
    requires h.phase == Unmounted
    ensures Run(h, events) == h
    decreases |events|
  {
    if events != [] {
      UnmountedIsFinal(Step(h, events[0]), events[1..]);
    }
  }

  /** A tick moves the current instant only while its interval is live; a stopped timer's tick changes nothing. */
  lemma TickEffect(h: Hook, handle: nat, now: int)
    requires Valid(h)
    ensures var g := Step(h, Tick(handle, now));
      && (h.phase == Mounted && handle in h.ticks ==> g == h.(currentTime := now))
      && (h.phase != Mounted || handle !in h.ticks ==> g == h)
      && (h.timer.state != Running ==> g == h)
  {
  }

  /**
   * Only the first render and a live interval callback set the current
   * instant: re-rendering with another timer and unmounting leave it alone.
   */
  lemma CurrentTimeOnlyOnTick(h: Hook, e: Event)
    ensures Step(h, e).currentTime != h.currentTime ==>
      || (e.Mount? && h.phase == Fresh && e.now != h.currentTime)
      || (e.Tick? && h.phase == Mounted && e.handle in h.ticks && e.now != h.currentTime)
    ensures h.phase != Fresh && !e.Tick? ==> Step(h, e).currentTime == h.currentTime
  {
  }

  /**
   * A live tick shows the rendering of the server's count plus the whole
   * seconds since the mount instant.
   */
  lemma TickShowsElapsed(h: Hook, handle: nat, now: int)
    requires Valid(h) && h.phase == Mounted && handle in h.ticks
    ensures Shown(Step(h, Tick(handle, now))) == TimeUtils.FormatTime(h.timer.seconds + (now - h.fetchTime) / 1000)
  {
    var g := Step(h, Tick(handle, now));
    assert g == h.(currentTime := now);
    assert h.timer.state == Running;
    TimeUtils.RunningSeconds(h.timer, now, h.fetchTime);
  }

  /** Pausing (any change away from running) clears the interval. */
  lemma PauseClears(h: Hook, timer: Timer)
    requires Valid(h) && h.phase == Mounted && h.timer.state == Running && timer.state != Running
    ensures Step(h, ChangeTimer(timer)).ticks == {}
  {
  }

  /** Resuming installs exactly one interval, with a handle never used before. */
  lemma ResumeSubscribes(h: Hook, timer: Timer)
    requires Valid(h) && h.phase == Mounted && h.timer.state != Running && timer.state == Running
    ensures var g := Step(h, ChangeTimer(timer));
      g.ticks == {h.nextHandle} && h.nextHandle !in h.ticks
  {
  }

  /**
   * A new timer object in the same state keeps the interval, and, like every
   * re-render, keeps both instants: a refreshed running snapshot is still
   * advanced by the time since mount, not since its own fetch.
   */
  lemma SameStateKeepsInterval(h: Hook, timer: Timer)
    requires h.phase == Mounted && timer.state == h.timer.state
    ensures var g := Step(h, ChangeTimer(timer));
      && g.ticks == h.ticks && g.timer == timer
      && g.currentTime == h.currentTime && g.fetchTime == h.fetchTime
  {
  }
}

=== FILE: entry_utils.dfy ===
/**
 * Summaries of logged time entries (src/utils/entry-utils.ts): the totals of a
 * list of entries, the day and week headers built from them, and the
 * decoration of each entry with its "HH:MM" rendering.
 */
module EntryUtils {
  import opened Strings
  import opened Types
  import opened JsNumber
  import opened TimeUtils

  // ---------------------------------------------------------------------------
  // Reference sums
  // ---------------------------------------------------------------------------

  /** The minutes of all entries. */
  function TotalMinutes(entries: seq<Entry>): int {
    if entries == [] then 0 else entries[0].minutes + TotalMinutes(entries[1..])
  }

  /** The minutes of the billable entries. */
  function BillableMinutes(entries: seq<Entry>): int {
    if entries == [] then 0
    else (if entries[0].billable then entries[0].minutes else 0) + BillableMinutes(entries[1..])
  }

  /** The minutes of the entries that are not billable. */
  function UnbillableMinutes(entries: seq<Entry>): int {
    if entries == [] then 0
    else (if entries[0].billable then 0 else entries[0].minutes) + UnbillableMinutes(entries[1..])
  }

  /** Every entry's minutes are either billable or not. */
  lemma {:induction false} MinutesPartition(entries: seq<Entry>)
    ensures TotalMinutes(entries) == BillableMinutes(entries) + UnbillableMinutes(entries)
  {
    if entries != [] {
      MinutesPartition(entries[1..]);
    }
  }

  /** The sums distribute over concatenation, so a week's totals are the sum of its days'. */
  lemma {:induction false} SumsOfConcat(a: seq<Entry>, b: seq<Entry>)
    ensures TotalMinutes(a + b) == TotalMinutes(a) + TotalMinutes(b)
    ensures BillableMinutes(a + b) == BillableMinutes(a) + BillableMinutes(b)
    ensures UnbillableMinutes(a + b) == UnbillableMinutes(a) + UnbillableMinutes(b)
  {
    if a != [] {
      assert (a + b)[0] == a[0];
      assert (a + b)[1..] == a[1..] + b;
      SumsOfConcat(a[1..], b);
    } else {
      assert a + b == b;
    }
  }

  predicate NonNegativeMinutes(entries: seq<Entry>) {
    forall i :: 0 <= i < |entries| ==> entries[i].minutes >= 0
  }

  /** With no negative entries the billable minutes lie between zero and the total. */
  lemma {:induction false} BillableWithinTotal(entries: seq<Entry>)
    requires NonNegativeMinutes(entries)
    ensures 0 <= BillableMinutes(entries) <= TotalMinutes(entries)
  {
    if entries != [] {
      assert NonNegativeMinutes(entries[1..]) by {
        forall i | 0 <= i < |entries[1..]|
          ensures entries[1..][i].minutes >= 0
        {
          assert entries[1..][i] == entries[i + 1];
        }
      }
      BillableWithinTotal(entries[1..]);
    }
  }

  // ---------------------------------------------------------------------------
  // calculateEntrySummary
  // ---------------------------------------------------------------------------

  /** The running totals `reduce` carries from entry to entry. */
  datatype Totals = Totals(totalMinutes: int, billableMinutes: int)

  /** One step of the `reduce`: every entry adds to the total, billable ones also to the billable minutes. */
  function AddEntry(acc: Totals, entry: Entry): Totals {
    Totals(acc.totalMinutes + entry.minutes,
           if entry.billable then acc.billableMinutes + entry.minutes else acc.billableMinutes)
  }

  /** `entries.reduce(AddEntry, acc)`, left to right. */
  function Accumulate(acc: Totals, entries: seq<Entry>): Totals
    decreases |entries|
  {
    if entries == [] then acc else Accumulate(AddEntry(acc, entries[0]), entries[1..])
  }

  /** The fold adds the reference sums to whatever it starts from. */
  lemma {:induction false} AccumulateSums(acc: Totals, entries: seq<Entry>)
    ensures Accumulate(acc, entries)
      == Totals(acc.totalMinutes + TotalMinutes(entries), acc.billableMinutes + BillableMinutes(entries))
    decreases |entries|
  {
    if entries != [] {
      AccumulateSums(AddEntry(acc, entries[0]), entries[1..]);
    }
  }

  datatype EntrySummary = EntrySummary(
    totalMinutes: int,
    billableMinutes: int,
    unbillableMinutes: int,
    entryCount: nat,
    totalFormatted: string,
    billableFormatted: string,
    unbillableFormatted: string)

  /**
   * `calculateEntrySummary`: the total, billable and unbillable minutes of the
   * entries, their number, and each sum as "HH:MM".
   */
  function CalculateEntrySummary(entries: seq<Entry>): (s: EntrySummary)
    ensures s.totalMinutes == TotalMinutes(entries)
    ensures s.billableMinutes == BillableMinutes(entries)
    ensures s.unbillableMinutes == UnbillableMinutes(entries)
    ensures s.entryCount == |entries|
    ensures s.totalFormatted == HoursFormat(s.totalMinutes)
    ensures s.billableFormatted == HoursFormat(s.billableMinutes)
    ensures s.unbillableFormatted == HoursFormat(s.unbillableMinutes)
  {
    MinutesPartition(entries);
    if |entries| == 0 then
      assert HoursFormat(0) == "00:00" by {
        assert NatToString(0) == "0";
      }
      EntrySummary(0, 0, 0, 0, "00:00", "00:00", "00:00")
    else
      var result := Accumulate(Totals(0, 0), entries);
      AccumulateSums(Totals(0, 0), entries);
      var unbillableMinutes := result.totalMinutes - result.billableMinutes;
      EntrySummary(
        result.totalMinutes,
        result.billableMinutes,
        unbillableMinutes,
        |entries|,
        HoursFormat(result.totalMinutes),
        HoursFormat(result.billableMinutes),
        HoursFormat(unbillableMinutes))
  }

  // ---------------------------------------------------------------------------
  // Day and week headers
  // ---------------------------------------------------------------------------

  /**
   * `Math.round(billable / total * 100)` when the total is positive, else 0:
   * the integer nearest to the billable share in percent, a half rounded up.
   */
  function BillablePercentage(totalMinutes: int, billableMinutes: int): (p: int)
    ensures totalMinutes > 0 ==>
      2 * totalMinutes * p - totalMinutes <= 200 * billableMinutes < 2 * totalMinutes * p + totalMinutes
    ensures totalMinutes <= 0 ==> p == 0
  {
    if totalMinutes > 0 then Round(100 * billableMinutes, totalMinutes) else 0
  }

  /** Multiplying by a positive factor keeps the order. */
  lemma MulLeft(t: int, a: int, b: int)
    requires t > 0 && a <= b
    ensures t * a <= t * b
  {
    assert t * b - t * a == t * (b - a);
  }

  /** Dividing an inequality by a positive factor keeps it strict. */
  lemma BelowScaled(t: int, p: int, k: int)
    requires t > 0 && t * p < t * k
    ensures p < k
  {
    if p >= k {
      MulLeft(t, k, p);
      assert false;
    }
  }

  /** A share of a positive total is a percentage between 0 and 100. */
  lemma PercentageBounds(totalMinutes: int, billableMinutes: int)
    requires 0 <= billableMinutes <= totalMinutes
    ensures 0 <= BillablePercentage(totalMinutes, billableMinutes) <= 100
  {
    if totalMinutes > 0 {
      var p := BillablePercentage(totalMinutes, billableMinutes);
      var d := 2 * totalMinutes;
      assert d * p < d * 101;
      BelowScaled(d, p, 101);
      assert d * (-1) < d * p;
      BelowScaled(d, -1, p);
    }
  }

  /** No billable time is 0%, all of it is 100%. */
  lemma PercentageExtremes(totalMinutes: int)
    requires totalMinutes > 0
    ensures BillablePercentage(totalMinutes, 0) == 0
    ensures BillablePercentage(totalMinutes, totalMinutes) == 100
  {
    var d := 2 * totalMinutes;
    var p0 := BillablePercentage(totalMinutes, 0);
    assert d * p0 < d * 1;
    BelowScaled(d, p0, 1);
    assert d * (-1) < d * p0;
    BelowScaled(d, -1, p0);
    var p1 := BillablePercentage(totalMinutes, totalMinutes);
    assert d * p1 < d * 101;
    BelowScaled(d, p1, 101);
    assert d * 99 < d * p1;
    BelowScaled(d, 99, p1);
  }

  lemma PercentageExamples()
    ensures BillablePercentage(300, 200) == 67
    ensures BillablePercentage(150, 90) == 60
    ensures BillablePercentage(0, 0) == 0
  {
  }

  const Bullet := " • "

  /** "1 entry" or "N entries". */
  function EntryCountLabel(count: int): string {
    ToString(count) + " " + (if count == 1 then "entry" else "entries")
  }

  /** " HH:MM • Billable HH:MM • Unbillable HH:MM", the part of the title after its leading word. */
  function TitleTail(s: EntrySummary): string {
    " " + s.totalFormatted + Bullet + "Billable " + s.billableFormatted + Bullet + "Unbillable " + s.unbillableFormatted
  }

  /** "N entries • P% billable". */
  function HeaderSubtitle(s: EntrySummary): string {
    EntryCountLabel(s.entryCount) + Bullet + ToString(BillablePercentage(s.totalMinutes, s.billableMinutes)) + "% billable"
  }

  /** The summary built from the reference sums alone. */
  function ReferenceSummary(entries: seq<Entry>): EntrySummary {
    EntrySummary(TotalMinutes(entries), BillableMinutes(entries), UnbillableMinutes(entries), |entries|,
                 HoursFormat(TotalMinutes(entries)), HoursFormat(BillableMinutes(entries)), HoursFormat(UnbillableMinutes(entries)))
  }

  /** The subtitle over some entries: their count with the right noun, then the billable percentage of their sums. */
  function SubtitleOf(entries: seq<Entry>): string {
    EntryCountLabel(|entries|) + Bullet + ToString(BillablePercentage(TotalMinutes(entries), BillableMinutes(entries))) + "% billable"
  }

  /** "entry" is used for a count of one and "entries" for every other count. */
  lemma EntryCountLabelNoun(count: nat)
    ensures count == 1 ==> EntryCountLabel(count) == "1 entry"
    ensures count != 1 ==> EntryCountLabel(count) == NatToString(count) + " entries"
  {
    if count == 1 {
      assert NatToString(1) == "1";
    }
  }

  /** The header of a day; `present` is the source's `exists` flag. */
  datatype EntriesSummary = EntriesSummary(title: string, subtitle: string, present: bool, billable: string, unbillable: string)

  /** `getEntriesSummary`: the header over one day's entries, produced even when there are none. */
  function GetEntriesSummary(entries: seq<Entry>): (r: EntriesSummary)
    ensures r.present <==> |entries| > 0
    ensures r.billable == HoursFormat(BillableMinutes(entries))
    ensures r.unbillable == HoursFormat(UnbillableMinutes(entries))
    ensures r.title == "Total" + TitleTail(ReferenceSummary(entries))
    ensures r.subtitle == SubtitleOf(entries)
  {
    var summary := CalculateEntrySummary(entries);
    assert summary == ReferenceSummary(entries);
    EntriesSummary("Total" + TitleTail(summary), HeaderSubtitle(summary), |entries| > 0,
                   summary.billableFormatted, summary.unbillableFormatted)
  }

  datatype WeekSummary = WeekSummary(title: string, subtitle: string, present: bool, totalFormatted: string, billable: string, unbillable: string)

  /** `getWeekSummary`: the header over a week's entries, all fields empty when there are none. */
  function GetWeekSummary(entries: seq<Entry>): (r: WeekSummary)
    ensures r.present <==> |entries| > 0
    ensures |entries| == 0 ==> r == WeekSummary("", "", false, "", "", "")
    ensures |entries| > 0 ==> r.totalFormatted == HoursFormat(TotalMinutes(entries))
    ensures |entries| > 0 ==> r.billable == HoursFormat(BillableMinutes(entries))
    ensures |entries| > 0 ==> r.unbillable == HoursFormat(UnbillableMinutes(entries))
    ensures |entries| > 0 ==> r.title == "Week" + TitleTail(ReferenceSummary(entries))
    ensures |entries| > 0 ==> r.subtitle == SubtitleOf(entries)
  {
    if |entries| == 0 then WeekSummary("", "", false, "", "", "")
    else
      var summary := CalculateEntrySummary(entries);
      assert summary == ReferenceSummary(entries);
      WeekSummary("Week" + TitleTail(summary), HeaderSubtitle(summary), true,
                  summary.totalFormatted, summary.billableFormatted, summary.unbillableFormatted)
  }

  /**
   * Over the same non-empty entries the week header agrees with the day header
   * in everything but its leading word.
   */
  lemma WeekMatchesDay(entries: seq<Entry>)
    requires |entries| > 0
    ensures var day, week := GetEntriesSummary(entries), GetWeekSummary(entries);
      && week.present && day.present
      && week.subtitle == day.subtitle
      && week.billable == day.billable && week.unbillable == day.unbillable
      && day.title == "Total" + week.title[|"Week"|..]
  {
    var rest := TitleTail(CalculateEntrySummary(entries));
    assert ("Week" + rest)[|"Week"|..] == rest;
  }

  /**
   * Two entries, 60 billable and 90 unbillable minutes out of 150: the day
   * header reads "Total 02:30 • Billable 01:00 • Unbillable 01:30" over
   * "2 entries • 40% billable".
   */
  lemma DayHeaderExample(a: Entry, b: Entry)
    requires a.minutes == 60 && a.billable && b.minutes == 90 && !b.billable
    ensures GetEntriesSummary([a, b]).title == "Total" + (" " + "02:30" + Bullet + "Billable " + "01:00" + Bullet + "Unbillable " + "01:30")
    ensures GetEntriesSummary([a, b]).subtitle == "2 entries" + Bullet + "40" + "% billable"
  {
    PairSums(a, b);
    ExampleSummary([a, b]);
    ExampleTitle([a, b]);
    ExampleSubtitle([a, b]);
  }

  lemma ExampleTitle(e: seq<Entry>)
    requires ReferenceSummary(e) == EntrySummary(150, 60, 90, 2, "02:30", "01:00", "01:30")
    ensures GetEntriesSummary(e).title == "Total" + (" " + "02:30" + Bullet + "Billable " + "01:00" + Bullet + "Unbillable " + "01:30")
  {
  }

  lemma ExampleSummary(e: seq<Entry>)
    requires TotalMinutes(e) == 150 && BillableMinutes(e) == 60 && UnbillableMinutes(e) == 90 && |e| == 2
    ensures ReferenceSummary(e) == EntrySummary(150, 60, 90, 2, "02:30", "01:00", "01:30")
  {
    ExampleTimes();
  }

  lemma ExampleSubtitle(e: seq<Entry>)
    requires TotalMinutes(e) == 150 && BillableMinutes(e) == 60 && |e| == 2
    ensures SubtitleOf(e) == "2 entries" + Bullet + "40" + "% billable"
  {
    ExampleCounts();
  }

  lemma PairSums(a: Entry, b: Entry)
    ensures TotalMinutes([a, b]) == a.minutes + b.minutes
    ensures BillableMinutes([a, b]) == (if a.billable then a.minutes else 0) + (if b.billable then b.minutes else 0)
    ensures UnbillableMinutes([a, b]) == (if a.billable then 0 else a.minutes) + (if b.billable then 0 else b.minutes)
  {
    assert [a, b][1..] == [b];
    assert [b][1..] == [];
    assert TotalMinutes([b]) == b.minutes;
    assert BillableMinutes([b]) == (if b.billable then b.minutes else 0);
    assert UnbillableMinutes([b]) == (if b.billable then 0 else b.minutes);
  }

  lemma ExampleTimes()
    ensures HoursFormat(150) == "02:30" && HoursFormat(60) == "01:00" && HoursFormat(90) == "01:30"
  {
    assert NatToString(0) == "0" && NatToString(1) == "1" && NatToString(2) == "2";
    assert NatToString(30) == "30";
  }

  lemma ExampleCounts()
    ensures EntryCountLabel(2) == "2 entries"
    ensures ToString(BillablePercentage(150, 60)) == "40"
  {
    assert NatToString(2) == "2";
    assert BillablePercentage(150, 60) == 40;
    assert NatToString(40) == "40";
  }

  /** An empty day still has a header, with zero time; an empty week has none. */
  lemma EmptySummaries()
    ensures GetEntriesSummary([]).present == false
    ensures GetEntriesSummary([]).billable == "00:00"
    ensures GetEntriesSummary([]).unbillable == "00:00"
    ensures GetEntriesSummary([]).title == "Total" + (" " + "00:00" + Bullet + "Billable " + "00:00" + Bullet + "Unbillable " + "00:00")
    ensures GetEntriesSummary([]).subtitle == "0 entries" + Bullet + "0% billable"
    ensures GetWeekSummary([]).title == ""
  {
    assert NatToString(0) == "0";
    assert HoursFormat(0) == "00:00";
  }

  // ---------------------------------------------------------------------------
  // entryDecorator
  // ---------------------------------------------------------------------------

  /** `entryDecorator`: every entry with `formatted_minutes` recomputed from its minutes. */
  function EntryDecorator(entries: seq<Entry>): (r: seq<Entry>)
    ensures |r| == |entries|
    ensures forall i :: 0 <= i < |r| ==>
      r[i].formattedMinutes == HoursFormat(entries[i].minutes)
      && r[i].(formattedMinutes := entries[i].formattedMinutes) == entries[i]
  {
    seq(|entries|, i requires 0 <= i < |entries| => entries[i].(formattedMinutes := HoursFormat(entries[i].minutes)))
  }

  predicate Decorated(entries: seq<Entry>) {
    forall i :: 0 <= i < |entries| ==> entries[i].formattedMinutes == HoursFormat(entries[i].minutes)
  }

  /** Decorating leaves a list unchanged exactly when it is already decorated. */
  lemma DecoratorFixedPoint(entries: seq<Entry>)
    ensures EntryDecorator(entries) == entries <==> Decorated(entries)
  {
    var r := EntryDecorator(entries);
    if Decorated(entries) {
      forall i | 0 <= i < |entries|
        ensures r[i] == entries[i]
      {
        assert r[i].(formattedMinutes := entries[i].formattedMinutes) == entries[i];
      }
    }
  }

  /** Decorating twice is decorating once. */
  lemma DecoratorIdempotent(entries: seq<Entry>)
    ensures EntryDecorator(EntryDecorator(entries)) == EntryDecorator(entries)
  {
    var r := EntryDecorator(entries);
    assert Decorated(r) by {
      forall i | 0 <= i < |r|
        ensures r[i].formattedMinutes == HoursFormat(r[i].minutes)
      {
        assert r[i].minutes == entries[i].minutes by {
          assert r[i].(formattedMinutes := entries[i].formattedMinutes) == entries[i];
        }
      }
    }
    DecoratorFixedPoint(r);
  }

  /** Decorating does not change any sum. */
  lemma {:induction false} DecoratorKeepsSums(entries: seq<Entry>)
    ensures TotalMinutes(EntryDecorator(entries)) == TotalMinutes(entries)
    ensures BillableMinutes(EntryDecorator(entries)) == BillableMinutes(entries)
    ensures UnbillableMinutes(EntryDecorator(entries)) == UnbillableMinutes(entries)
  {
    if entries != [] {
      var r := EntryDecorator(entries);
      assert r[1..] == EntryDecorator(entries[1..]);
      assert r[0].(formattedMinutes := entries[0].formattedMinutes) == entries[0];
      DecoratorKeepsSums(entries[1..]);
    }
  }
}

=== FILE: js_number.dfy ===
/**
 * The JavaScript number operations the time code relies on, restricted to
 * integer values: `Math.floor` of a quotient, the `%` operator, `Math.round`
 * of a quotient, `String(n)`, `parseInt(s, 10)` and `Number(s)`.
 */
module JsNumber {
  import opened Strings
  import opened Optional

  /** `Math.floor(a / d)` for a positive divisor. */
  function FloorDiv(a: int, d: int): (q: int)
    requires d > 0
    ensures d * q <= a < d * q + d
  {
    a / d
  }

  /** `Math.trunc(a / d)` for a positive divisor: the quotient rounded toward zero. */
  function TruncDiv(a: int, d: int): int
    requires d > 0
  {
    if a >= 0 then a / d else -((-a) / d)
  }

  /**
   * `a % d`: the remainder of the quotient rounded toward zero, so unlike
   * Dafny's `%` it takes the sign of the dividend.
   */
  function Rem(a: int, d: int): (r: int)
    requires d > 0
    ensures a == d * TruncDiv(a, d) + r
    ensures -d < r < d
    ensures a >= 0 ==> r >= 0
    ensures a <= 0 ==> r <= 0
  {
    if a >= 0 then a % d
    else
      var x := -a;
      assert x == d * (x / d) + x % d;
      assert d * -(x / d) == -(d * (x / d));
      -(x % d)
  }

  /** The remainder keeps the sign of the dividend: -90 % 60 is -30, where Dafny's `%` gives 30. */
  lemma RemExamples()
    ensures Rem(5, 60) == 5 && Rem(-90, 60) == -30 && Rem(3661, 3600) == 61
  {
  }

  /** `Math.round(n / d)`: the nearest integer, a half rounded up. */
  function Round(n: int, d: int): (r: int)
    requires d > 0
    ensures 2 * d * r - d <= 2 * n < 2 * d * r + d
  {
    (2 * n + d) / (2 * d)
  }

  /** `Math.round(n / 60)` over whole minutes: shifting by k minutes shifts the result by k. */
  lemma RoundShift(n: int, k: int)
    ensures Round(n + 60 * k, 60) == Round(n, 60) + k
  {
  }

  /** `Math.round(n / 60)` is n plus half a minute, rounded down. */
  lemma RoundToMinute(n: int)
    ensures Round(n, 60) == (n + 30) / 60
  {
  }

  /** `String(i)` for an integer. */
  function ToString(i: int): string {
    if i < 0 then "-" + NatToString(-i) else NatToString(i)
  }

  /** The longest prefix of decimal digits. */
  function DigitPrefix(s: string): (d: string)
    ensures AllDigits(d) && |d| <= |s|
  {
    if s != [] && IsDigit(s[0]) then [s[0]] + DigitPrefix(s[1..]) else []
  }

  /** An optional leading '+' or '-': whether it was '-', and the text after it. */
  function SplitSign(s: string): (bool, string) {
    if s != [] && (s[0] == '-' || s[0] == '+') then (s[0] == '-', s[1..]) else (false, s)
  }

  /** Splitting an optional sign off text whose body does not start with another sign. */
  lemma SplitSignOf(sign: string, body: string)
    requires sign == "" || sign == "-" || sign == "+"
    requires body == [] || (body[0] != '-' && body[0] != '+')
    ensures SplitSign(sign + body) == (sign == "-", body)
  {
    if sign == "" {
      assert sign + body == body;
    } else {
      assert (sign + body)[1..] == body;
    }
  }

  function Signed(negative: bool, n: nat): int {
    if negative then -(n as int) else n
  }

  /**
   * `parseInt(s, 10)`: leading whitespace is skipped, an optional sign is read,
   * then the longest run of digits; None stands for NaN (no digit at all).
   */
  function ParseInt(s: string): Option<int> {
    var (negative, body) := SplitSign(TrimStart(s));
    var digits := DigitPrefix(body);
    if digits == [] then None else Some(Signed(negative, DigitsValue(digits)))
  }

  lemma {:induction false} DigitPrefixOf(digits: string, rest: string)
    requires AllDigits(digits)
    requires rest == [] || !IsDigit(rest[0])
    ensures DigitPrefix(digits + rest) == digits
  {
    if digits == [] {
      assert digits + rest == rest;
    } else {
      assert (digits + rest)[1..] == digits[1..] + rest;
      DigitPrefixOf(digits[1..], rest);
      assert [digits[0]] + digits[1..] == digits;
    }
  }

  /** The characterisation of `parseInt` on the text it reads: the digits are taken up to the first non-digit. */
  lemma ParseIntStopsAtNonDigit(digits: string, rest: string)
    requires digits != [] && AllDigits(digits)
    requires rest == [] || !IsDigit(rest[0])
    ensures ParseInt(digits + rest) == Some(DigitsValue(digits))
  {
    var s := digits + rest;
    assert s[0] == digits[0];
    assert TrimStart(s) == s;
    assert SplitSign(s) == (false, s);
    DigitPrefixOf(digits, rest);
  }

  /**
   * The full reading of `parseInt`: leading whitespace is skipped, one optional
   * '+' or '-' is applied to the digits that follow, and the text after the
   * digits is ignored.
   */
  lemma ParseIntSigned(ws: string, sign: string, digits: string, rest: string)
    requires AllWhitespace(ws)
    requires sign == "" || sign == "-" || sign == "+"
    requires digits != [] && AllDigits(digits)
    requires rest == [] || !IsDigit(rest[0])
    ensures ParseInt(ws + sign + digits + rest) == Some(Signed(sign == "-", DigitsValue(digits)))
  {
    var tail := sign + (digits + rest);
    assert ws + sign + digits + rest == ws + tail;
    TrimStartAppend(ws, tail);
    assert tail[0] == if sign == "" then digits[0] else sign[0];
    assert TrimStart(tail) == tail;
    if sign == "" {
      assert tail == digits + rest;
      assert SplitSign(tail) == (false, digits + rest);
    } else {
      assert tail[1..] == digits + rest;
    }
    DigitPrefixOf(digits, rest);
  }

  /** `parseInt` reads a whole run of digits back as its value. */
  lemma ParseIntDigits(s: string)
    requires s != [] && AllDigits(s)
    ensures ParseInt(s) == Some(DigitsValue(s))
  {
    ParseIntStopsAtNonDigit(s, []);
    assert s + [] == s;
  }

  /**
   * `Number(s)` for strings whose trimmed text is empty or an optionally signed
   * run of decimal digits. None stands for NaN and also for the decimal-point,
   * exponent, hexadecimal and Infinity forms, which are not interpreted here.
   */
  function Number(s: string): (r: Option<int>)
    ensures Trim(s) == [] ==> r == Some(0)
  {
    var t := Trim(s);
    if t == [] then Some(0)
    else
      var (negative, body) := SplitSign(t);
      if body != [] && AllDigits(body) then Some(Signed(negative, DigitsValue(body))) else None
  }

  /** `Number` ignores whitespace around an optionally signed run of digits and applies the sign. */
  lemma NumberTrimsAndSigns(before: string, sign: string, digits: string, after: string)
    requires AllWhitespace(before) && AllWhitespace(after)
    requires sign == "" || sign == "-" || sign == "+"
    requires digits != [] && AllDigits(digits)
    ensures Number(before + sign + digits + after) == Some(Signed(sign == "-", DigitsValue(digits)))
  {
    var x := sign + digits;
    assert x[0] == if sign == "" then digits[0] else sign[0];
    assert x[|x| - 1] == digits[|digits| - 1];
    assert before + sign + digits + after == before + (x + after);
    TrimStartAppend(before, x + after);
    assert TrimStart(x + after) == x + after;
    TrimEndAppend(x, after);
    assert TrimEnd(x) == x;
    SplitSignOf(sign, digits);
  }

  /** `Number` reads a run of digits back as its value. */
  lemma NumberDigits(s: string)
    requires s != [] && AllDigits(s)
    ensures Number(s) == Some(DigitsValue(s))
  {
    assert !IsWhitespace(s[0]) && !IsWhitespace(s[|s| - 1]);
    TrimmedIsFixed(s);
  }
}

=== FILE: legacy_utils.dfy ===
/**
 * The older helper module (src/utils.ts). Its `hoursFormat`, `entryDecorator`
 * and `formatTime` are copies of the current ones; its `getElapsedTime` and
 * `userName` differ, and the lemmas below say where. The elapsed-time hook is
 * read as showing the src/utils/ version, which agrees with this one while
 * the timer runs.
 */
module LegacyUtils {
  import opened Strings
  import opened JsNumber
  import opened Optional
  import opened Types
  import TimeUtils
  import EntryUtils
  import UserUtils

  /** `hoursFormat`, as in the legacy module. */
  function HoursFormat(minutes: int): string {
    PadStart2(ToString(FloorDiv(minutes, 60))) + ":" + PadStart2(ToString(Rem(minutes, 60)))
  }

  /** `entryDecorator`, as in the legacy module. */
  function EntryDecorator(entries: seq<Entry>): (r: seq<Entry>)
    ensures |r| == |entries|
  {
    seq(|entries|, i requires 0 <= i < |entries| => entries[i].(formattedMinutes := HoursFormat(entries[i].minutes)))
  }

  /** `formatTime`, as in the legacy module. */
  function FormatTime(seconds: int): string {
    var hours := FloorDiv(seconds, 3600);
    var minutes := FloorDiv(Rem(seconds, 3600), 60);
    var secs := Rem(seconds, 60);
    if hours > 0 then PadStart2(ToString(hours)) + ":" + PadStart2(ToString(minutes)) + ":" + PadStart2(ToString(secs))
    else PadStart2(ToString(minutes)) + ":" + PadStart2(ToString(secs))
  }

  /** The copied formatters compute exactly what the current ones do, on every input. */
  lemma CopiesAgree(minutes: int, seconds: int, entries: seq<Entry>)
    ensures HoursFormat(minutes) == TimeUtils.HoursFormat(minutes)
    ensures FormatTime(seconds) == TimeUtils.FormatTime(seconds)
    ensures EntryDecorator(entries) == EntryUtils.EntryDecorator(entries)
  {
    var a, b := EntryDecorator(entries), EntryUtils.EntryDecorator(entries);
    forall i | 0 <= i < |a|
      ensures a[i] == b[i]
    {
      assert b[i].(formattedMinutes := entries[i].formattedMinutes) == entries[i];
    }
  }

  /**
   * `getElapsedTime` of the legacy module: a timer that is not running shows
   * the server's `formatted_time` (None where the timer has none, as on the
   * null object); a running one adds the seconds since the fetch.
   */
  function GetElapsedTime(timer: Timer, currentTime: int, fetchTime: int): Option<string> {
    if timer.state != Running then timer.formattedTime
    else Some(FormatTime(timer.seconds + FloorDiv(currentTime - fetchTime, 1000)))
  }

  /**
   * The two `getElapsedTime` versions agree on running timers and on stopped
   * timers whose server rendering is the one FormatTime gives; on other
   * stopped timers the legacy one echoes the server.
   */
  lemma ElapsedVersionsAgree(timer: Timer, currentTime: int, fetchTime: int)
    ensures timer.state == Running || timer.formattedTime == Some(TimeUtils.FormatTime(timer.seconds)) ==>
      GetElapsedTime(timer, currentTime, fetchTime) == Some(TimeUtils.GetElapsedTime(timer, currentTime, fetchTime))
    ensures timer.state != Running ==> GetElapsedTime(timer, currentTime, fetchTime) == timer.formattedTime
  {
    CopiesAgree(0, timer.seconds + FloorDiv(currentTime - fetchTime, 1000), []);
  }

  /** On the null object the legacy version has nothing to show, where the current one shows "00:00". */
  lemma ElapsedOfNullTimer(currentTime: int, fetchTime: int)
    ensures GetElapsedTime(NullTimer, currentTime, fetchTime) == None
    ensures TimeUtils.GetElapsedTime(NullTimer, currentTime, fetchTime) == "00:00"
  {
    assert NatToString(0) == "0";
  }

  /** `userName` of the legacy module: empty without a user or a first or last name; the e-mail is not checked. */
  function UserName(user: Option<User>): (r: string)
    ensures r == "" <==> user.None? || user.value.firstName == "" || user.value.lastName == ""
  {
    match user
    case None => ""
    case Some(u) =>
      if u.firstName == "" || u.lastName == "" then ""
      else u.firstName + " " + u.lastName + " <" + u.email + ">"
  }

  /**
   * The two `userName` versions differ exactly on a named user without an
   * e-mail address, which the legacy one renders with empty brackets.
   */
  lemma UserNameVersions(user: Option<User>)
    ensures UserName(user) != UserUtils.UserName(user) <==>
      user.Some? && user.value.firstName != "" && user.value.lastName != "" && user.value.email == ""
    ensures UserName(user) != UserUtils.UserName(user) ==>
      UserName(user) == user.value.firstName + " " + user.value.lastName + " <>"
  {
  }
}

=== FILE: optional.dfy ===
/** An optional value: JavaScript's `undefined`/`null` on one side, a present value on the other. */
module Optional {

  datatype Option<T> = None | Some(value: T) {

    /** The present value, or the default when absent (`x ?? d` / `x || d` on objects). */
    function GetOr(default: T): T {
      match this
      case Some(v) => v
      case None => default
    }
  }
}

=== FILE: strings.dfy ===
/**
 * Character-level building blocks shared by the model: decimal digits,
 * `String.prototype.padStart`, `split`, `join`, `trim` and `startsWith`
 * on strings of Unicode characters.
 */
module Strings {

  predicate IsDigit(c: char) {
    '0' <= c <= '9'
  }

  predicate AllDigits(s: string) {
    forall i :: 0 <= i < |s| ==> IsDigit(s[i])
  }

  function DigitValue(c: char): nat
    requires IsDigit(c)
  {
    c as int - '0' as int
  }

  function DigitChar(d: nat): (c: char)
    requires d < 10
    ensures IsDigit(c) && DigitValue(c) == d
  {
    ('0' as int + d) as char
  }

  /** The value of a run of decimal digits, most significant digit first. */
  function DigitsValue(s: string): nat
    requires AllDigits(s)
  {
    if s == [] then 0 else 10 * DigitsValue(s[..|s| - 1]) + DigitValue(s[|s| - 1])
  }

  /** The decimal rendering of a natural number, without leading zeros. */
  function NatToString(n: nat): string {
    if n < 10 then [DigitChar(n)] else NatToString(n / 10) + [DigitChar(n % 10)]
  }

  /**
   * The rendering is a run of digits reading back as the number, one digit
   * exactly below ten, at most two below a hundred, and no leading zero.
   */
  lemma {:induction false} NatToStringSpec(n: nat)
    ensures var r := NatToString(n);
      && AllDigits(r) && DigitsValue(r) == n
      && |r| >= 1
      && (n < 10 <==> |r| == 1)
      && (n < 100 ==> |r| <= 2)
      && (|r| > 1 ==> r[0] != '0')
  {
    if n >= 10 {
      NatToStringSpec(n / 10);
      var prefix := NatToString(n / 10);
      var r := prefix + [DigitChar(n % 10)];
      assert r[..|r| - 1] == prefix;
      assert r[0] == prefix[0];
    }
  }

  /** A leading zero does not change the value of a run of digits. */
  lemma {:induction false} LeadingZeroValue(s: string)
    requires AllDigits(s)
    ensures AllDigits("0" + s) && DigitsValue("0" + s) == DigitsValue(s)
  {
    var z := "0" + s;
    if s == [] {
      assert z[..|z| - 1] == [];
    } else {
      assert z[..|z| - 1] == "0" + s[..|s| - 1];
      LeadingZeroValue(s[..|s| - 1]);
    }
  }

  /** `s.padStart(2, "0")`: strings shorter than two characters are filled with '0' on the left. */
  function PadStart2(s: string): string {
    if |s| >= 2 then s else if |s| == 1 then "0" + s else "00"
  }

  /** Padding a decimal rendering keeps it a run of digits with the same value, and two digits suffice below 100. */
  lemma PadDigits(n: nat)
    ensures var r := PadStart2(NatToString(n));
      && AllDigits(r) && DigitsValue(r) == n && |r| >= 2
      && (n < 100 ==> |r| == 2)
  {
    var s := NatToString(n);
    NatToStringSpec(n);
    if |s| < 2 {
      assert PadStart2(s) == "0" + s;
      LeadingZeroValue(s);
    }
  }

  /** `s.split(sep)` for a one-character separator. */
  function Split(s: string, sep: char): (parts: seq<string>)
    ensures |parts| >= 1
  {
    if s == [] then [""]
    else
      assert s == [s[0]] + s[1..];
      var rest := Split(s[1..], sep);
      if s[0] == sep then [""] + rest else [[s[0]] + rest[0]] + rest[1..]
  }

  /** `parts.join(sep)`. */
  function Join(parts: seq<string>, sep: string): string {
    if |parts| == 0 then ""
    else if |parts| == 1 then parts[0]
    else parts[0] + sep + Join(parts[1..], sep)
  }

  /** A join starts with the first piece. */
  lemma JoinFirst(parts: seq<string>, sep: string)
    requires |parts| >= 1 && parts[0] != []
    ensures Join(parts, sep) != [] && Join(parts, sep)[0] == parts[0][0]
  {
  }

  /** A join ends with the last piece. */
  lemma {:induction false} JoinLast(parts: seq<string>, sep: string)
    requires |parts| >= 1 && parts[|parts| - 1] != []
    ensures var j, last := Join(parts, sep), parts[|parts| - 1];
      j != [] && j[|j| - 1] == last[|last| - 1]
  {
    if |parts| > 1 {
      JoinLast(parts[1..], sep);
    }
  }

  /** Joining the pieces of a split with the same separator restores the string. */
  lemma {:induction false} JoinSplit(s: string, sep: char)
    ensures Join(Split(s, sep), [sep]) == s
  {
    if s != [] {
      JoinSplit(s[1..], sep);
      var rest := Split(s[1..], sep);
      if s[0] != sep && |rest| > 1 {
        assert rest == [rest[0]] + rest[1..];
        assert Join(rest, [sep]) == rest[0] + [sep] + Join(rest[1..], [sep]);
      }
    }
  }

  lemma {:induction false} SplitWithout(a: string, sep: char)
    requires sep !in a
    ensures Split(a, sep) == [a]
  {
    if a != [] {
      SplitWithout(a[1..], sep);
      assert a == [a[0]] + a[1..];
    }
  }

  lemma {:induction false} SplitCons(a: string, b: string, sep: char)
    requires sep !in a
    ensures Split(a + [sep] + b, sep) == [a] + Split(b, sep)
  {
    var s := a + [sep] + b;
    if a == [] {
      assert s[1..] == b;
    } else {
      assert s[1..] == a[1..] + [sep] + b;
      SplitCons(a[1..], b, sep);
      assert [s[0]] + a[1..] == a;
    }
  }

  /** Splitting a join restores the pieces when no piece holds the separator. */
  lemma {:induction false} SplitJoin(parts: seq<string>, sep: char)
    requires |parts| >= 1
    requires forall i :: 0 <= i < |parts| ==> sep !in parts[i]
    ensures Split(Join(parts, [sep]), sep) == parts
  {
    if |parts| == 1 {
      SplitWithout(parts[0], sep);
    } else {
      var tail := parts[1..];
      forall i | 0 <= i < |tail|
        ensures sep !in tail[i]
      {
        assert tail[i] == parts[i + 1];
      }
      SplitJoin(tail, sep);
      var joined := Join(tail, [sep]);
      assert Join(parts, [sep]) == parts[0] + [sep] + joined;
      assert sep !in parts[0];
      SplitCons(parts[0], joined, sep);
      assert [parts[0]] + tail == parts;
    }
  }

  /** Two separator-free pieces around one separator split back into those pieces. */
  lemma SplitTwo(a: string, b: string, sep: char)
    requires sep !in a && sep !in b
    ensures Split(a + [sep] + b, sep) == [a, b]
  {
    SplitCons(a, b, sep);
    SplitWithout(b, sep);
  }

  /** Three separator-free pieces joined by the separator split back into those pieces. */
  lemma SplitThree(a: string, b: string, c: string, sep: char)
    requires sep !in a && sep !in b && sep !in c
    ensures Split(a + [sep] + b + [sep] + c, sep) == [a, b, c]
  {
    assert a + [sep] + b + [sep] + c == a + [sep] + (b + [sep] + c);
    SplitCons(a, b + [sep] + c, sep);
    SplitTwo(b, c, sep);
  }

  /** A split has one piece more than there are separators, and no piece holds one. */
  lemma {:induction false} SplitCount(s: string, sep: char)
    ensures |Split(s, sep)| == multiset(s)[sep] + 1
    ensures forall i :: 0 <= i < |Split(s, sep)| ==> sep !in Split(s, sep)[i]
  {
    if s != [] {
      assert s == [s[0]] + s[1..];
      SplitCount(s[1..], sep);
    }
  }

  /** More than one piece means the separator occurs. */
  lemma SplitFindsSeparator(s: string, sep: char)
    requires |Split(s, sep)| >= 2
    ensures sep in s
  {
    SplitCount(s, sep);
    assert sep in multiset(s);
  }

  /** The characters JavaScript's `trim` and `parseInt` skip: ECMAScript WhiteSpace and LineTerminator. */
  predicate IsWhitespace(c: char) {
    || c == '\t' || c == '\n' || c == '\U{000B}' || c == '\U{000C}' || c == '\r'
    || c == ' ' || c == '\U{00A0}' || c == '\U{1680}' || '\U{2000}' <= c <= '\U{200A}'
    || c == '\U{2028}' || c == '\U{2029}' || c == '\U{202F}' || c == '\U{205F}'
    || c == '\U{3000}' || c == '\U{FEFF}'
  }

  predicate AllWhitespace(s: string) {
    forall i :: 0 <= i < |s| ==> IsWhitespace(s[i])
  }

  /** No whitespace at either end. */
  predicate Trimmed(s: string) {
    s == [] || (!IsWhitespace(s[0]) && !IsWhitespace(s[|s| - 1]))
  }

  /** Drops leading whitespace: the result is the suffix that starts at the first non-whitespace character. */
  function TrimStart(s: string): string {
    if s != [] && IsWhitespace(s[0]) then TrimStart(s[1..]) else s
  }

  /** TrimStart keeps the suffix that starts at the first non-whitespace character. */
  lemma {:induction false} TrimStartSpec(s: string)
    ensures var r := TrimStart(s);
      && |r| <= |s| && r == s[|s| - |r|..]
      && AllWhitespace(s[..|s| - |r|])
      && (r == [] || !IsWhitespace(r[0]))
  {
    if s != [] && IsWhitespace(s[0]) {
      TrimStartSpec(s[1..]);
      var r := TrimStart(s);
      assert s[..|s| - |r|] == [s[0]] + s[1..][..|s| - 1 - |r|];
    }
  }

  /** Drops trailing whitespace: the result is the prefix that ends at the last non-whitespace character. */
  function TrimEnd(s: string): string {
    if s != [] && IsWhitespace(s[|s| - 1]) then TrimEnd(s[..|s| - 1]) else s
  }

  /** TrimEnd keeps the prefix that ends at the last non-whitespace character. */
  lemma {:induction false} TrimEndSpec(s: string)
    ensures var r := TrimEnd(s);
      && |r| <= |s| && r == s[..|r|]
      && AllWhitespace(s[|r|..])
      && (r == [] || !IsWhitespace(r[|r| - 1]))
  {
    if s != [] && IsWhitespace(s[|s| - 1]) {
      TrimEndSpec(s[..|s| - 1]);
      var r := TrimEnd(s);
      assert s[|r|..] == s[..|s| - 1][|r|..] + [s[|s| - 1]];
    }
  }

  /** `s.trim()`. */
  function Trim(s: string): string {
    TrimEnd(TrimStart(s))
  }

  /** `trim` leaves no whitespace at either end and removes only whitespace. */
  lemma TrimSpec(s: string)
    ensures Trimmed(Trim(s))
    ensures exists i, j ::
              && 0 <= i <= j <= |s| && Trim(s) == s[i..j]
              && AllWhitespace(s[..i]) && AllWhitespace(s[j..])
  {
    var t := TrimStart(s);
    TrimStartSpec(s);
    TrimEndSpec(t);
    var r := TrimEnd(t);
    if r != [] {
      assert r[0] == t[0];
    }
    var i := |s| - |t|;
    var j := i + |r|;
    assert r == s[i..j];
    assert s[j..] == t[|r|..];
  }

  lemma TrimmedIsFixed(s: string)
    requires Trimmed(s)
    ensures Trim(s) == s
  {
  }

  /** Trimming the start of a concatenation: an all-whitespace head disappears, any other head stays in front of the tail. */
  lemma {:induction false} TrimStartAppend(s: string, t: string)
    ensures TrimStart(s + t) == if AllWhitespace(s) then TrimStart(t) else TrimStart(s) + t
  {
    if s != [] {
      assert (s + t)[1..] == s[1..] + t;
      if IsWhitespace(s[0]) {
        TrimStartAppend(s[1..], t);
        assert AllWhitespace(s) <==> AllWhitespace(s[1..]);
      }
    } else {
      assert s + t == t;
    }
  }

  /** Trimming the end of a concatenation: an all-whitespace tail disappears, any other tail keeps the head in front. */
  lemma {:induction false} TrimEndAppend(s: string, t: string)
    ensures TrimEnd(s + t) == if AllWhitespace(t) then TrimEnd(s) else s + TrimEnd(t)
  {
    if t != [] {
      assert (s + t)[..|s + t| - 1] == s + t[..|t| - 1];
      if IsWhitespace(t[|t| - 1]) {
        TrimEndAppend(s, t[..|t| - 1]);
        assert AllWhitespace(t) <==> AllWhitespace(t[..|t| - 1]);
      }
    } else {
      assert s + t == s;
    }
  }

  /** `s.startsWith(prefix)`. */
  predicate StartsWith(s: string, prefix: string) {
    |prefix| <= |s| && s[..|prefix|] == prefix
  }
}

=== FILE: time_utils.dfy ===
/**
 * Time formatting and parsing (src/utils/time-utils.ts): minutes and seconds
 * rendered as zero-padded clock strings, clock strings read back, the free-form
 * time input of the entry form, and the live elapsed time of a timer.
 */
module TimeUtils {
  import opened Strings
  import opened JsNumber
  import opened Optional
  import opened Types

  /** `String(n).padStart(2, "0")`. */
  function Pad2(n: int): string {
    PadStart2(ToString(n))
  }

  lemma NoColonInDigits(s: string)
    requires AllDigits(s)
    ensures ':' !in s
  {
  }

  /** A padded non-negative number is a colon-free run of at least two digits with the same value. */
  lemma Pad2Digits(n: nat)
    ensures AllDigits(Pad2(n)) && DigitsValue(Pad2(n)) == n && |Pad2(n)| >= 2 && ':' !in Pad2(n)
    ensures n < 100 ==> |Pad2(n)| == 2
  {
    PadDigits(n);
    NoColonInDigits(Pad2(n));
  }

  /** `hoursFormat`: minutes as "HH:MM", hours padded to at least two digits. */
  function HoursFormat(minutes: int): string {
    Pad2(FloorDiv(minutes, 60)) + ":" + Pad2(Rem(minutes, 60))
  }

  /** `formatMinutesAsTime`: minutes as "H:MM", hours unpadded. */
  function FormatMinutesAsTime(minutes: int): string {
    ToString(FloorDiv(minutes, 60)) + ":" + Pad2(Rem(minutes, 60))
  }

  /**
   * For a non-negative count, HoursFormat yields exactly two colon-separated
   * fields: hours with at least two digits and minutes with exactly two digits
   * below 60, which together read back as the count.
   */
  lemma HoursFormatFields(m: int)
    requires m >= 0
    ensures var parts := Split(HoursFormat(m), ':');
      && |parts| == 2
      && AllDigits(parts[0]) && |parts[0]| >= 2
      && AllDigits(parts[1]) && |parts[1]| == 2 && DigitsValue(parts[1]) < 60
      && DigitsValue(parts[0]) * 60 + DigitsValue(parts[1]) == m
  {
    var h, mm := Pad2(m / 60), Pad2(m % 60);
    Pad2Digits(m / 60);
    Pad2Digits(m % 60);
    assert HoursFormat(m) == h + ":" + mm;
    SplitTwo(h, mm, ':');
  }

  /**
   * For a non-negative count, FormatMinutesAsTime yields an unpadded hour field
   * (no leading zero) and a two-digit minute field below 60, reading back as the count.
   */
  lemma FormatMinutesAsTimeFields(m: int)
    requires m >= 0
    ensures var parts := Split(FormatMinutesAsTime(m), ':');
      && |parts| == 2
      && parts[0] == NatToString(m / 60) && AllDigits(parts[0])
      && AllDigits(parts[1]) && |parts[1]| == 2 && DigitsValue(parts[1]) < 60
      && DigitsValue(parts[0]) * 60 + DigitsValue(parts[1]) == m
  {
    var h, mm := NatToString(m / 60), Pad2(m % 60);
    NatToStringSpec(m / 60);
    Pad2Digits(m % 60);
    NoColonInDigits(h);
    assert FormatMinutesAsTime(m) == h + ":" + mm;
    SplitTwo(h, mm, ':');
  }

  lemma FormatExamples()
    ensures HoursFormat(90) == "01:30"
    ensures HoursFormat(2160) == "36:00"
    ensures FormatMinutesAsTime(15) == "0:15"
  {
    assert NatToString(1) == "1";
    assert NatToString(30) == "30";
    assert NatToString(36) == "36";
    assert NatToString(0) == "0";
    assert NatToString(15) == "15";
  }

  // ---------------------------------------------------------------------------
  // Parsing the entry form's time field
  // ---------------------------------------------------------------------------

  /** The outcome of `parseTimeInput`: minutes, a thrown error, or a `parseFloat` value the model does not interpret. */
  datatype TimeInput = Minutes(value: int) | Invalid(message: string) | Uninterpreted(text: string)

  const RequiredMessage := "Time is required. Enter time in h:mm format (e.g., 1:30) or minutes (e.g., 90)"
  const ColonFormatMessage := "Invalid time format. Use h:mm (e.g., 1:30)"
  const NumberFormatMessage := "Invalid time format. Use h:mm (e.g., 1:30) or minutes (e.g., 90)"

  /**
   * The bare-number branch, `parseFloat` on the trimmed text. A signed run of
   * digits not followed by '.', 'e' or 'E' is an integer; text that does not
   * start like a number is NaN and an error; the remaining forms (fractions,
   * exponents, Infinity) are left uninterpreted.
   */
  function ParseBareNumber(t: string): TimeInput {
    var (negative, body) := SplitSign(t);
    var digits := DigitPrefix(body);
    var rest := body[|digits|..];
    if digits != [] then
      if rest != [] && (rest[0] == '.' || rest[0] == 'e' || rest[0] == 'E') then Uninterpreted(t)
      else Minutes(Signed(negative, DigitsValue(digits)))
    else if StartsWith(body, "Infinity") || (|body| >= 2 && body[0] == '.' && IsDigit(body[1])) then Uninterpreted(t)
    else Invalid(NumberFormatMessage)
  }

  /** `parseTimeInput`: "h:mm" or a bare number of minutes. */
  function ParseTimeInput(text: string): TimeInput {
    var trimmed := Trim(text);
    if trimmed == [] then Invalid(RequiredMessage)
    else if ':' in trimmed && |Split(trimmed, ':')| == 2 then
      var parts := Split(trimmed, ':');
      var hours := ParseInt(parts[0]);
      var minutes := ParseInt(parts[1]);
      if hours.None? || minutes.None? || minutes.value >= 60 then Invalid(ColonFormatMessage)
      else Minutes(hours.value * 60 + minutes.value)
    else ParseBareNumber(trimmed)
  }

  /** The "required" error is raised exactly when the input is empty once trimmed. */
  lemma ParseTimeInputRequired(text: string)
    ensures ParseTimeInput(text) == Invalid(RequiredMessage) <==> Trim(text) == []
  {
  }

  /**
   * Trimmed text with exactly two colon-separated parts is accepted iff both
   * parts start with an integer and the minutes are below 60, and is then
   * hours*60 + minutes; otherwise it is the colon-format error.
   */
  lemma ParseTimeInputColon(text: string)
    requires |Split(Trim(text), ':')| == 2
    ensures var parts := Split(Trim(text), ':');
      var hours, minutes := ParseInt(parts[0]), ParseInt(parts[1]);
      var r := ParseTimeInput(text);
      && (r.Minutes? <==> hours.Some? && minutes.Some? && minutes.value < 60)
      && (r.Minutes? ==> r.value == hours.value * 60 + minutes.value)
      && (!r.Minutes? ==> r == Invalid(ColonFormatMessage))
  {
    SplitFindsSeparator(Trim(text), ':');
  }

  /** Colon text with other than two parts is not rejected as such: it goes to the bare-number branch. */
  lemma ColonFallsThrough(text: string)
    requires ':' in Trim(text) && |Split(Trim(text), ':')| != 2
    ensures ParseTimeInput(text) == ParseBareNumber(Trim(text))
  {
  }

  /** A run of digits not followed by a decimal point or exponent is read as that many minutes. */
  lemma ParseBareInteger(digits: string, rest: string)
    requires digits != [] && AllDigits(digits)
    requires rest == [] || (!IsDigit(rest[0]) && rest[0] != '.' && rest[0] != 'e' && rest[0] != 'E')
    ensures ParseBareNumber(digits + rest) == Minutes(DigitsValue(digits))
  {
    var t := digits + rest;
    assert t[0] == digits[0];
    assert SplitSign(t) == (false, t);
    DigitPrefixOf(digits, rest);
    assert t[|digits|..] == rest;
  }

  /** An optionally signed run of digits not followed by a decimal point or exponent is read as those minutes, negated after '-'. */
  lemma ParseBareSigned(sign: string, digits: string, rest: string)
    requires sign == "" || sign == "-" || sign == "+"
    requires digits != [] && AllDigits(digits)
    requires rest == [] || (!IsDigit(rest[0]) && rest[0] != '.' && rest[0] != 'e' && rest[0] != 'E')
    ensures ParseBareNumber(sign + digits + rest) == Minutes(Signed(sign == "-", DigitsValue(digits)))
  {
    var body := digits + rest;
    assert body[0] == digits[0];
    SplitSignOf(sign, body);
    assert sign + digits + rest == sign + body;
    DigitPrefixOf(digits, rest);
    assert body[|digits|..] == rest;
  }

  /** A digit run followed by a decimal point or exponent is a fraction or exponent form, left uninterpreted. */
  lemma ParseBareFraction(sign: string, digits: string, rest: string)
    requires sign == "" || sign == "-" || sign == "+"
    requires digits != [] && AllDigits(digits)
    requires rest != [] && (rest[0] == '.' || rest[0] == 'e' || rest[0] == 'E')
    ensures ParseBareNumber(sign + digits + rest) == Uninterpreted(sign + digits + rest)
  {
    var body := digits + rest;
    assert body[0] == digits[0];
    SplitSignOf(sign, body);
    assert sign + digits + rest == sign + body;
    DigitPrefixOf(digits, rest);
    assert body[|digits|..] == rest;
  }

  /**
   * Text with no digit after the optional sign: "Infinity" and a leading
   * decimal point followed by a digit are numbers `parseFloat` reads and are
   * left uninterpreted; anything else is NaN, the number-format error.
   */
  lemma ParseBareWithoutDigits(sign: string, body: string)
    requires sign == "" || sign == "-" || sign == "+"
    requires body == [] || (!IsDigit(body[0]) && body[0] != '-' && body[0] != '+')
    ensures StartsWith(body, "Infinity") ==> ParseBareNumber(sign + body) == Uninterpreted(sign + body)
    ensures |body| >= 2 && body[0] == '.' && IsDigit(body[1]) ==> ParseBareNumber(sign + body) == Uninterpreted(sign + body)
    ensures !StartsWith(body, "Infinity") && !(|body| >= 2 && body[0] == '.' && IsDigit(body[1])) ==>
      ParseBareNumber(sign + body) == Invalid(NumberFormatMessage)
  {
    SplitSignOf(sign, body);
    assert DigitPrefix(body) == [];
  }

  /** A signed number of minutes keeps its sign: "-15" is -15 minutes. */
  lemma ParseNegativeMinutesExample()
    ensures ParseTimeInput("-15") == Minutes(-15)
  {
    var t := "-15";
    TrimmedIsFixed(t);
    assert ':' !in t;
    ParseBareSigned("-", "15", "");
    assert "-" + "15" + "" == t;
    assert DigitsValue("15") == 15 by {
      assert "15"[..1] == "1";
    }
  }

  /** Text that cannot start a number is the number-format error. */
  lemma ParseBareRejects(t: string)
    requires t != [] && !IsDigit(t[0]) && t[0] !in "+-.I"
    ensures ParseBareNumber(t) == Invalid(NumberFormatMessage)
  {
    assert SplitSign(t) == (false, t);
    assert DigitPrefix(t) == [];
  }

  /** Whole minutes typed as a plain number are accepted as themselves. */
  lemma ParsePlainMinutes(m: nat)
    ensures ParseTimeInput(NatToString(m)) == Minutes(m)
  {
    var t := NatToString(m);
    NatToStringSpec(m);
    DigitEndsAreTrimmed(t);
    NoColonInDigits(t);
    assert t + [] == t;
    ParseBareInteger(t, []);
  }

  /** Blank input is the "required" error. */
  lemma ParseBlankExample()
    ensures ParseTimeInput(" \t") == Invalid(RequiredMessage)
  {
    assert TrimStart(" \t") == [];
    ParseTimeInputRequired(" \t");
  }

  /** Sixty minutes after the colon is the colon-format error. */
  lemma ParseMinutesOverflowExample()
    ensures ParseTimeInput("1:60") == Invalid(ColonFormatMessage)
  {
    var t := "1:60";
    DigitEndsAreTrimmed(t);
    assert t == "1" + [':'] + "60";
    SplitTwo("1", "60", ':');
    ParseIntDigits("60");
    assert DigitsValue("60") == 60 by {
      assert "60"[..1] == "6";
    }
    ParseTimeInputColon(t);
  }

  /** Three colon-separated fields fall through to `parseFloat`, which stops at the first colon. */
  lemma ParseThreeFieldsExample()
    ensures ParseTimeInput("1:2:3") == Minutes(1)
  {
    ThreeFieldsShape();
    ColonFallsThrough("1:2:3");
    ParseBareInteger("1", ":2:3");
    assert "1" + ":2:3" == "1:2:3";
  }

  lemma ThreeFieldsShape()
    ensures Trim("1:2:3") == "1:2:3" && ':' in "1:2:3" && |Split("1:2:3", ':')| == 3
  {
    var t := "1:2:3";
    DigitEndsAreTrimmed(t);
    assert t == "1" + [':'] + "2" + [':'] + "3";
    SplitThree("1", "2", "3", ':');
    assert t[1] == ':';
  }

  /** The sign belongs to the hours only: "-1:30" is -60 + 30 minutes, not -90. */
  lemma ParseNegativeHoursExample()
    ensures ParseTimeInput("-1:30") == Minutes(-30)
  {
    NegativeClockShape();
    NegativeClockFields();
    ParseClockText("-1:30", -1, 30);
  }

  lemma NegativeClockShape()
    ensures Trim("-1:30") == "-1:30" && Split("-1:30", ':') == ["-1", "30"]
  {
    TrimmedIsFixed("-1:30");
    assert "-1:30" == "-1" + [':'] + "30";
    SplitTwo("-1", "30", ':');
  }

  lemma NegativeClockFields()
    ensures ParseInt("-1") == Some(-1) && ParseInt("30") == Some(30)
  {
    ParseIntSigned("", "-", "1", "");
    assert "" + "-" + "1" + "" == "-1";
    ParseIntDigits("30");
    assert DigitsValue("30") == 30 by {
      assert "30"[..1] == "3";
    }
  }

  /** `parseInt` skips the blank after the colon, so "1: 30" is 90 minutes. */
  lemma ParseBlankMinutesExample()
    ensures ParseTimeInput("1: 30") == Minutes(90)
  {
    var t := "1: 30";
    DigitEndsAreTrimmed(t);
    assert t == "1" + [':'] + " 30";
    SplitTwo("1", " 30", ':');
    ParseIntDigits("1");
    ParseIntSigned(" ", "", "30", "");
    assert " " + "" + "30" + "" == " 30";
    assert DigitsValue("30") == 30 by {
      assert "30"[..1] == "3";
    }
    ParseTimeInputColon(t);
  }

  /** Text that begins and ends with a digit is left alone by `trim`. */
  lemma DigitEndsAreTrimmed(t: string)
    requires |t| > 0 && IsDigit(t[0]) && IsDigit(t[|t| - 1])
    ensures Trim(t) == t
  {
    TrimmedIsFixed(t);
  }

  lemma ClockTextIsTrimmed(h: string, m: string)
    requires h != [] && AllDigits(h) && m != [] && AllDigits(m)
    ensures var t := h + ":" + m; Trim(t) == t
  {
    var t := h + ":" + m;
    assert t[0] == h[0] && t[|t| - 1] == m[|m| - 1];
    DigitEndsAreTrimmed(t);
  }

  /** Trimmed text of two colon-separated integers with minutes below 60 is accepted as hours*60 + minutes. */
  lemma ParseClockText(t: string, hours: int, minutes: int)
    requires Trim(t) == t && |Split(t, ':')| == 2
    requires ParseInt(Split(t, ':')[0]) == Some(hours) && ParseInt(Split(t, ':')[1]) == Some(minutes)
    requires minutes < 60
    ensures ParseTimeInput(t) == Minutes(hours * 60 + minutes)
  {
    SplitFindsSeparator(t, ':');
  }

  /** Trimmed text of two runs of digits, the second below 60, is accepted as the minutes it spells. */
  lemma ParseClockDigits(t: string, m: int)
    requires Trim(t) == t
    requires var parts := Split(t, ':');
      && |parts| == 2
      && parts[0] != [] && AllDigits(parts[0])
      && parts[1] != [] && AllDigits(parts[1]) && DigitsValue(parts[1]) < 60
      && DigitsValue(parts[0]) * 60 + DigitsValue(parts[1]) == m
    ensures ParseTimeInput(t) == Minutes(m)
  {
    var parts := Split(t, ':');
    DigitFieldsParse(parts[0], parts[1]);
    ParseTimeInputColon(t);
  }

  lemma DigitFieldsParse(a: string, b: string)
    requires a != [] && AllDigits(a) && b != [] && AllDigits(b)
    ensures ParseInt(a) == Some(DigitsValue(a)) && ParseInt(b) == Some(DigitsValue(b))
  {
    ParseIntDigits(a);
    ParseIntDigits(b);
  }

  lemma FormatMinutesAsTimeIsTrimmed(m: int)
    requires m >= 0
    ensures Trim(FormatMinutesAsTime(m)) == FormatMinutesAsTime(m)
  {
    NatToStringSpec(m / 60);
    Pad2Digits(m % 60);
    assert FormatMinutesAsTime(m) == NatToString(m / 60) + ":" + Pad2(m % 60);
    ClockTextIsTrimmed(NatToString(m / 60), Pad2(m % 60));
  }

  lemma HoursFormatIsTrimmed(m: int)
    requires m >= 0
    ensures Trim(HoursFormat(m)) == HoursFormat(m)
  {
    Pad2Digits(m / 60);
    Pad2Digits(m % 60);
    assert HoursFormat(m) == Pad2(m / 60) + ":" + Pad2(m % 60);
    ClockTextIsTrimmed(Pad2(m / 60), Pad2(m % 60));
  }

  /** What the entry form pre-fills with FormatMinutesAsTime parses back to the same minutes. */
  lemma ParseFormatMinutesAsTime(m: int)
    requires m >= 0
    ensures ParseTimeInput(FormatMinutesAsTime(m)) == Minutes(m)
  {
    FormatMinutesAsTimeFields(m);
    NatToStringSpec(m / 60);
    FormatMinutesAsTimeIsTrimmed(m);
    ParseClockDigits(FormatMinutesAsTime(m), m);
  }

  /** An "HH:MM" rendering is accepted by the time field as the same minutes. */
  lemma ParseHoursFormat(m: int)
    requires m >= 0
    ensures ParseTimeInput(HoursFormat(m)) == Minutes(m)
  {
    HoursFormatFields(m);
    HoursFormatIsTrimmed(m);
    ParseClockDigits(HoursFormat(m), m);
  }

  // ---------------------------------------------------------------------------
  // Elapsed seconds as a clock string, and back
  // ---------------------------------------------------------------------------

  /** `formatTime`: "HH:MM:SS" when there is at least one whole hour, "MM:SS" otherwise. */
  function FormatTime(seconds: int): string {
    var hours := FloorDiv(seconds, 3600);
    var minutes := FloorDiv(Rem(seconds, 3600), 60);
    var secs := Rem(seconds, 60);
    if hours > 0 then Pad2(hours) + ":" + Pad2(minutes) + ":" + Pad2(secs)
    else Pad2(minutes) + ":" + Pad2(secs)
  }

  /**
   * A reference reading of clock strings as seconds: "H:MM:SS" as
   * 3600*H + 60*MM + SS and "MM:SS" as 60*MM + SS.
   */
  function DurationSeconds(text: string): Option<int> {
    var parts := Split(text, ':');
    if |parts| == 3 && Number(parts[0]).Some? && Number(parts[1]).Some? && Number(parts[2]).Some? then
      Some(Number(parts[0]).value * 3600 + Number(parts[1]).value * 60 + Number(parts[2]).value)
    else if |parts| == 2 && Number(parts[0]).Some? && Number(parts[1]).Some? then
      Some(Number(parts[0]).value * 60 + Number(parts[1]).value)
    else None
  }

  lemma ClockArithmetic(s: int)
    requires s >= 0
    ensures s % 3600 / 60 < 60 && s % 60 < 60
    ensures s / 3600 * 3600 + s % 3600 / 60 * 60 + s % 60 == s
    ensures s < 3600 ==> s / 3600 == 0 && s % 3600 / 60 == s / 60
    ensures s / 60 * 60 + s % 60 == s
  {
    var h, r := s / 3600, s % 3600;
    var m, t := r / 60, r % 60;
    assert s == 3600 * h + 60 * m + t;
    assert s == 60 * (60 * h + m) + t;
    assert s % 60 == t;
  }

  /** A padded non-negative number reads back through `Number` as itself. */
  lemma Pad2Number(n: nat)
    ensures Number(Pad2(n)) == Some(n)
  {
    Pad2Digits(n);
    NumberDigits(Pad2(n));
  }

  /** A padded non-negative number holds no colon. */
  lemma Pad2NoColon(n: nat)
    ensures ':' !in Pad2(n)
  {
    Pad2Digits(n);
  }

  /** Below one hour FormatTime has two fields: the padded minutes and seconds. */
  lemma FormatTimeShortSplit(s: int)
    requires 0 <= s < 3600
    ensures Split(FormatTime(s), ':') == [Pad2(s / 60), Pad2(s % 60)]
  {
    assert FloorDiv(s, 3600) == 0 && FloorDiv(Rem(s, 3600), 60) == s / 60 && Rem(s, 60) == s % 60;
    Pad2NoColon(s / 60);
    Pad2NoColon(s % 60);
    SplitTwo(Pad2(s / 60), Pad2(s % 60), ':');
  }

  /** From one hour on FormatTime has three fields: the padded hours, minutes of the hour and seconds of the minute. */
  lemma FormatTimeLongSplit(s: int)
    requires s >= 3600
    ensures Split(FormatTime(s), ':') == [Pad2(s / 3600), Pad2(s % 3600 / 60), Pad2(s % 60)]
  {
    assert FloorDiv(s, 3600) == s / 3600 > 0 && FloorDiv(Rem(s, 3600), 60) == s % 3600 / 60 && Rem(s, 60) == s % 60;
    Pad2NoColon(s / 3600);
    Pad2NoColon(s % 3600 / 60);
    Pad2NoColon(s % 60);
    SplitThree(Pad2(s / 3600), Pad2(s % 3600 / 60), Pad2(s % 60), ':');
  }

  /** Three fields that each read as a number give hours, minutes and seconds. */
  lemma DurationOfThreeFields(t: string, a: string, b: string, c: string, h: int, m: int, sec: int, total: int)
    requires Split(t, ':') == [a, b, c]
    requires Number(a) == Some(h) && Number(b) == Some(m) && Number(c) == Some(sec)
    requires h * 3600 + m * 60 + sec == total
    ensures DurationSeconds(t) == Some(total)
  {
  }

  /** Two fields that each read as a number give minutes and seconds. */
  lemma DurationOfTwoFields(t: string, a: string, b: string, m: int, sec: int, total: int)
    requires Split(t, ':') == [a, b]
    requires Number(a) == Some(m) && Number(b) == Some(sec)
    requires m * 60 + sec == total
    ensures DurationSeconds(t) == Some(total)
  {
  }

  /** FormatTime loses nothing: the reference reading recovers the count exactly. */
  lemma FormatTimeDecodes(s: int)
    requires s >= 0
    ensures DurationSeconds(FormatTime(s)) == Some(s)
  {
    ClockArithmetic(s);
    var h, m, sec := s / 3600, s % 3600 / 60, s % 60;
    Pad2Number(sec);
    if s >= 3600 {
      FormatTimeLongSplit(s);
      Pad2Number(h);
      Pad2Number(m);
      DurationOfThreeFields(FormatTime(s), Pad2(h), Pad2(m), Pad2(sec), h, m, sec, s);
    } else {
      FormatTimeShortSplit(s);
      Pad2Number(s / 60);
      DurationOfTwoFields(FormatTime(s), Pad2(s / 60), Pad2(sec), s / 60, sec, s);
    }
  }

  lemma FormatTimeExamples()
    ensures FormatTime(0) == "00:00"
    ensures FormatTime(3599) == "59:59"
    ensures FormatTime(3600) == "01:00:00"
  {
    assert NatToString(0) == "0";
    assert NatToString(59) == "59";
    assert NatToString(1) == "1";
  }

  /** `convertElapsedTimeToMinutes`: the clock string's minutes, its seconds rounded to the nearest minute; None stands for NaN. */
  function ConvertElapsedTimeToMinutes(elapsed: string): Option<int> {
    var parts := Split(elapsed, ':');
    if |parts| == 3 then
      var hours, minutes, seconds := Number(parts[0]), Number(parts[1]), Number(parts[2]);
      if hours.Some? && minutes.Some? && seconds.Some?
      then Some(hours.value * 60 + minutes.value + Round(seconds.value, 60))
      else None
    else if |parts| == 2 then
      var minutes, seconds := Number(parts[0]), Number(parts[1]);
      if minutes.Some? && seconds.Some? then Some(minutes.value + Round(seconds.value, 60)) else None
    else Some(0)
  }

  /** On every clock string the reference reading accepts, the conversion is that many seconds rounded to minutes. */
  lemma ConvertRoundsDuration(text: string)
    requires DurationSeconds(text).Some?
    ensures ConvertElapsedTimeToMinutes(text) == Some(Round(DurationSeconds(text).value, 60))
  {
    var parts := Split(text, ':');
    if |parts| == 3 {
      var h, m, s := Number(parts[0]).value, Number(parts[1]).value, Number(parts[2]).value;
      RoundShift(s, h * 60 + m);
      assert s + 60 * (h * 60 + m) == h * 3600 + m * 60 + s;
    } else {
      var m, s := Number(parts[0]).value, Number(parts[1]).value;
      RoundShift(s, m);
    }
  }

  /**
   * The other outcomes: text with other than two or three fields is 0, and
   * the conversion is NaN exactly when there are two or three fields and the
   * reference reading rejects one of them.
   */
  lemma ConvertFallbacks(text: string)
    ensures var n := |Split(text, ':')|;
      n != 2 && n != 3 ==> ConvertElapsedTimeToMinutes(text) == Some(0)
    ensures var n := |Split(text, ':')|;
      ConvertElapsedTimeToMinutes(text).None? <==> (n == 2 || n == 3) && DurationSeconds(text).None?
  {
  }

  /** Text without a colon is one field, which converts to 0 whatever it says. */
  lemma ConvertNoColonExample()
    ensures ConvertElapsedTimeToMinutes("90") == Some(0)
  {
    SplitWithout("90", ':');
    ConvertFallbacks("90");
  }

  /** Rendering a count of seconds and converting it back gives that count rounded to the nearest minute. */
  lemma ConvertFormatTime(s: int)
    requires s >= 0
    ensures ConvertElapsedTimeToMinutes(FormatTime(s)) == Some((s + 30) / 60)
  {
    FormatTimeDecodes(s);
    RoundToMinute(s);
    ConvertOfDuration(FormatTime(s), s, (s + 30) / 60);
  }

  lemma ConvertOfDuration(t: string, total: int, minutes: int)
    requires DurationSeconds(t) == Some(total) && Round(total, 60) == minutes
    ensures ConvertElapsedTimeToMinutes(t) == Some(minutes)
  {
    ConvertRoundsDuration(t);
  }

  /** Whole minutes survive the round trip unchanged. */
  lemma ConvertWholeMinutes(m: int)
    requires m >= 0
    ensures ConvertElapsedTimeToMinutes(FormatTime(m * 60)) == Some(m)
  {
    var s := m * 60;
    WholeMinuteRounds(m, s);
    ConvertFormatTime(s);
  }

  lemma WholeMinuteRounds(m: int, s: int)
    requires s == m * 60
    ensures (s + 30) / 60 == m
  {
  }

  /**
   * The timer-logging path: the elapsed display is converted to minutes, shown
   * as "H:MM" in the form and parsed on submit; the minutes submitted are the
   * elapsed seconds rounded to the nearest minute.
   */
  lemma LogTimerRoundTrip(s: int)
    requires s >= 0
    ensures var shown := ConvertElapsedTimeToMinutes(FormatTime(s));
      shown.Some? && ParseTimeInput(FormatMinutesAsTime(shown.value)) == Minutes((s + 30) / 60)
  {
    ConvertFormatTime(s);
    ParseFormatMinutesAsTime((s + 30) / 60);
  }

  // ---------------------------------------------------------------------------
  // Live elapsed time
  // ---------------------------------------------------------------------------

  /** The seconds `getElapsedTime` renders: a running timer adds the whole seconds between the fetch and now (milliseconds) to the server's count. */
  function ElapsedSeconds(timer: Timer, currentTime: int, fetchTime: int): int {
    if timer.state != Running then timer.seconds
    else timer.seconds + FloorDiv(currentTime - fetchTime, 1000)
  }

  /** `getElapsedTime`: the rendering of those seconds. */
  function GetElapsedTime(timer: Timer, currentTime: int, fetchTime: int): string {
    FormatTime(ElapsedSeconds(timer, currentTime, fetchTime))
  }

  /** A timer that is not running shows its stored count, whatever the two instants. */
  lemma ElapsedFrozenUnlessRunning(timer: Timer, currentTime: int, fetchTime: int)
    requires timer.state != Running && timer.seconds >= 0
    ensures DurationSeconds(GetElapsedTime(timer, currentTime, fetchTime)) == Some(timer.seconds)
  {
    FormatTimeDecodes(timer.seconds);
  }

  /**
   * A running timer shows the server's count plus the whole seconds elapsed
   * since the fetch, rounded down.
   */
  lemma ElapsedWhileRunning(timer: Timer, currentTime: int, fetchTime: int)
    requires timer.state == Running
    requires timer.seconds + (currentTime - fetchTime) / 1000 >= 0
    ensures DurationSeconds(GetElapsedTime(timer, currentTime, fetchTime))
      == Some(timer.seconds + (currentTime - fetchTime) / 1000)
  {
    RunningDecodes(timer, currentTime, fetchTime, timer.seconds + (currentTime - fetchTime) / 1000);
  }

  lemma RunningDecodes(timer: Timer, currentTime: int, fetchTime: int, secs: int)
    requires ElapsedSeconds(timer, currentTime, fetchTime) == secs && secs >= 0
    ensures DurationSeconds(GetElapsedTime(timer, currentTime, fetchTime)) == Some(secs)
  {
    FormatTimeDecodes(secs);
  }

  /** A running timer has advanced by the whole seconds since the fetch, rounded down. */
  lemma RunningSeconds(timer: Timer, currentTime: int, fetchTime: int)
    requires timer.state == Running
    ensures ElapsedSeconds(timer, currentTime, fetchTime) == timer.seconds + (currentTime - fetchTime) / 1000
  {
  }

  /** At the fetch instant itself, and for the rest of that second, a running timer shows exactly the server's count. */
  lemma ElapsedAtFetch(timer: Timer, currentTime: int, fetchTime: int)
    requires timer.state == Running
    requires fetchTime <= currentTime < fetchTime + 1000
    ensures GetElapsedTime(timer, currentTime, fetchTime) == FormatTime(timer.seconds)
  {
    assert FloorDiv(currentTime - fetchTime, 1000) == 0;
    assert timer.seconds + 0 == timer.seconds;
  }

  /** The displayed seconds of a running timer never go down as the current instant advances. */
  lemma ElapsedMonotone(timer: Timer, earlier: int, later: int, fetchTime: int)
    requires timer.state == Running && earlier <= later
    requires timer.seconds + (earlier - fetchTime) / 1000 >= 0
    ensures var before, after := DurationSeconds(GetElapsedTime(timer, earlier, fetchTime)),
                                 DurationSeconds(GetElapsedTime(timer, later, fetchTime));
      before.Some? && after.Some? && before.value <= after.value
  {
    ElapsedWhileRunning(timer, earlier, fetchTime);
    ElapsedWhileRunning(timer, later, fetchTime);
  }
}

=== FILE: timer_utils.dfy ===
/**
 * Sorting priority of timer states (src/utils/timer-utils.ts with the
 * constants of src/constants.ts): running timers first, then paused ones,
 * then everything else, including a missing state.
 */
module TimerUtils {
  import opened Optional
  import opened Types

  /** Lower numbers sort first. */
  const RunningPriority := 1
  const PausedPriority := 2
  const NullPriority := 3

  /** `getTimerStatePriority`; `None` is a null state. */
  function TimerStatePriority(state: Option<TimerState>): (p: int)
    ensures p == RunningPriority <==> state == Some(Running)
    ensures p == PausedPriority <==> state == Some(Paused)
    ensures p == NullPriority <==> state != Some(Running) && state != Some(Paused)
  {
    if state == Some(Running) then RunningPriority
    else if state == Some(Paused) then PausedPriority
    else NullPriority
  }

  /** States in the order a sort by ascending priority leaves them. */
  predicate SortedByPriority(states: seq<Option<TimerState>>) {
    forall i, j :: 0 <= i < j < |states| ==> TimerStatePriority(states[i]) <= TimerStatePriority(states[j])
  }

  /**
   * A consequence of the ranking alone, for any sequence ordered by it: every
   * running timer comes before every timer that is not running, and every
   * paused timer before every timer that is neither. The sort that puts the
   * timers in this order is not modelled; only the ranking it uses is.
   */
  lemma SortedGroupsStates(states: seq<Option<TimerState>>, i: int, j: int)
    requires SortedByPriority(states) && 0 <= i < j < |states|
    ensures states[j] == Some(Running) ==> states[i] == Some(Running)
    ensures states[j] == Some(Paused) ==> states[i] == Some(Running) || states[i] == Some(Paused)
  {
    assert TimerStatePriority(states[i]) <= TimerStatePriority(states[j]);
  }

  /** The priority is a strict ranking of the three groups. */
  lemma PriorityRanks(state: Option<TimerState>)
    ensures RunningPriority <= TimerStatePriority(state) <= NullPriority
    ensures TimerStatePriority(Some(Running)) < TimerStatePriority(Some(Paused)) < TimerStatePriority(None)
  {
  }
}

=== FILE: types.dfy ===
/**
 * The records the time-tracking core works on: users, tags, timers,
 * projects and logged entries, as the remote API delivers them.
 */
module Types {
  import opened Optional

  datatype User = User(id: string, email: string, firstName: string, lastName: string, profileImageUrl: string)

  datatype Tag = Tag(id: string, name: string, formattedName: string)

  /** The timer state string; `Other` is any value besides "running" and "paused". */
  datatype TimerState = Running | Paused | Other(name: string)

  /**
   * A timer snapshot. `formattedTime` is the server's rendering, present on
   * every timer the API returns and absent (undefined) on the null object.
   */
  datatype Timer = Timer(
    id: string,
    state: TimerState,
    date: string,
    seconds: int,
    formattedTime: Option<string>,
    url: string,
    startUrl: string,
    pauseUrl: string,
    addOrSubtractTimeUrl: string,
    logUrl: string,
    logInboxEntryUrl: string)

  /** The "no timer" null object: empty id, paused, zero seconds, every link empty. */
  const NullTimer: Timer := Timer("", Paused, "", 0, None, "", "", "", "", "", "")

  datatype Project = Project(
    id: string,
    name: string,
    color: string,
    enabled: bool,
    billingIncrement: Option<int>,
    timer: Timer)

  datatype Entry = Entry(
    id: string,
    date: string,
    billable: bool,
    minutes: int,
    formattedMinutes: string,
    description: string,
    approvedBy: Option<User>,
    approvedAt: string,
    user: User,
    tags: seq<Tag>,
    project: Project)

  /** A timer as the `/timers` listing returns it, with the id of the project it belongs to. */
  datatype ApiTimer = ApiTimer(projectId: string, timer: Timer)
}

=== FILE: user_utils.dfy ===
/**
 * Display strings for people and tags (src/utils/user-utils.ts): a user as
 * "First Last <email>" and a tag list as its formatted names joined by ", ".
 */
module UserUtils {
  import opened Strings
  import opened Optional
  import opened Types

  /**
   * `userName`: "First Last <email>", or empty when there is no user or any of
   * the three fields is empty (a missing field is the empty string here).
   */
  function UserName(user: Option<User>): (r: string)
    ensures r == "" <==> user.None? || user.value.firstName == "" || user.value.lastName == "" || user.value.email == ""
  {
    match user
    case None => ""
    case Some(u) =>
      if u.firstName == "" || u.lastName == "" || u.email == "" then ""
      else u.firstName + " " + u.lastName + " <" + u.email + ">"
  }

  /**
   * A non-empty name reads back: it begins with the first name and a space,
   * and ends with the e-mail address in angle brackets.
   */
  lemma UserNameReadsBack(u: User)
    requires UserName(Some(u)) != ""
    ensures var r := UserName(Some(u));
      && |r| == |u.firstName| + |u.lastName| + |u.email| + 4
      && r[..|u.firstName| + 1] == u.firstName + " "
      && r[|u.firstName| + 1..|u.firstName| + 1 + |u.lastName|] == u.lastName
      && r[|u.firstName| + 1 + |u.lastName|..|r| - |u.email| - 1] == " <"
      && r[|r| - |u.email| - 1..] == u.email + ">"
  {
    var r := UserName(Some(u));
    var f, l := |u.firstName|, |u.lastName|;
    assert r == (u.firstName + " ") + u.lastName + " <" + (u.email + ">");
  }

  /** The formatted names of the tags, in order. */
  function TagNames(tags: seq<Tag>): (names: seq<string>)
    ensures |names| == |tags|
    ensures forall i :: 0 <= i < |tags| ==> names[i] == tags[i].formattedName
  {
    seq(|tags|, i requires 0 <= i < |tags| => tags[i].formattedName)
  }

  /** `formatTags`: the formatted names joined by ", ", empty for a missing or empty list. */
  function FormatTags(tags: Option<seq<Tag>>): string {
    if tags.None? || |tags.value| == 0 then "" else Join(TagNames(tags.value), ", ")
  }

  /** The sum of the formatted names' lengths. */
  function NamesLength(tags: seq<Tag>): nat {
    if tags == [] then 0 else |tags[0].formattedName| + NamesLength(tags[1..])
  }

  /** The list reads as the first name, then ", " and the rest of the list. */
  lemma FormatTagsCons(tag: Tag, rest: seq<Tag>)
    requires rest != []
    ensures FormatTags(Some([tag] + rest)) == tag.formattedName + ", " + FormatTags(Some(rest))
  {
    assert TagNames([tag] + rest)[1..] == TagNames(rest);
  }

  /** The text is the names plus two characters for every separator. */
  lemma {:induction false} FormatTagsLength(tags: seq<Tag>)
    requires tags != []
    ensures |FormatTags(Some(tags))| == NamesLength(tags) + 2 * (|tags| - 1)
  {
    if |tags| > 1 {
      assert tags == [tags[0]] + tags[1..];
      FormatTagsCons(tags[0], tags[1..]);
      FormatTagsLength(tags[1..]);
    } else {
      assert TagNames(tags) == [tags[0].formattedName];
    }
  }

  /** Missing, empty and one-tag lists. */
  lemma FormatTagsSmall(tag: Tag)
    ensures FormatTags(None) == "" && FormatTags(Some([])) == ""
    ensures FormatTags(Some([tag])) == tag.formattedName
  {
    assert TagNames([tag]) == [tag.formattedName];
  }
}
